=== FILE: README.md ===
# VMDescImg request pipeline, modelled in Dafny

VMDescImg is a service that stores uploaded images and describes them with a
BLIP captioning model, optionally translating the caption. This project
models the service's core request pipeline as pure Dafny functions over
immutable values:

- **Upload.** `ImgHandler.upload` calls the `UploadImg` use case. The image
  bytes are written to the image directory under the decimal text of their
  hash. A fresh identifier is recorded against that path, with no
  description.
- **Describe.** `DescriptHandler.get` validates the request, then calls the
  `GetDescript` use case. The use case looks the path up by identifier and
  reads the file. It picks a `CapModelDirector` and optionally a translator
  by name, generates the caption through the director's
  `BLIPCapModelBuilder`, and stores the caption against the identifier.
- **Translation.** There are two strategies, `GoogleTranslator` (switchable
  target language) and `AppTranslator` (fixed language).
- **Responses.** Each handler answers with exactly one `dto` envelope, built
  by its viewer: 200 on success, 400 for a refused request, 500 for an
  exception.

How Python is represented:

- A raised exception is an `Err(Exc(kind, message))` value, with the
  source's kinds and its messages kept word for word.
- An argument of unchecked Python type is a `PyValue`. `bool` counts as an
  `int`.
- The `requests` table is a `map` from identifier to record. The image
  directory is a `map` from path to bytes.
- The directors and translators are process-wide singletons in the source.
  They are one `Registry` value, threaded from request to request by
  `Service.Run`. This is how a length or translator chosen by one request
  reaches the next.

Everything outside the process is a parameter, so every contract holds
whatever these parameters do:

- model loading and caption generation (`Blip.Hub`)
- the two translation back ends (`Translators.Backends`)
- the per-process `hash` of bytes
- text-to-UUID parsing
- the identifier `uuid4()` mints
- whether a write, read, lookup or commit fails

Behaviour of the code worth knowing:

- **Configured default length is not checked.** A fresh builder takes the
  configured default length as it is. Nothing checks that the default is at
  least 1, or that the configured minimum and maximum are ordered.
- **Lengths below 1.** The handler's bounds come from configuration. When
  the configured minimum is below 1, a length like 0 passes the handler and
  then fails in `set_max_length` with a `ValueError`, which is a 500.
- **Two different name checks.** The handler checks names against the
  configuration's key sets. The use case dispatches on its own fixed
  mappings (`blip`; `google`, `apptrans`). A name known to the first but not
  the second gets a 500, not a 400 (`DescriptHandler.ConfiguredButUnmappedModel`).
- **Hash collisions overwrite files.** The stored file name is a function of
  the bytes' hash alone. Two different images whose hashes collide
  overwrite each other's file (`UploadImg.EarlierImageKept`).

## Model

| member | source | states |
|---|---|---|
| Blip.SetDownloadPath | src/entities/cap_models/blip.py:141-144 | succeeds exactly for a string, which becomes the download path with every other field kept; anything else raises `TypeError` |
| Blip.SetCacheDir | src/entities/cap_models/blip.py:157-160 | succeeds exactly for a string, which becomes the cache directory with every other field kept; anything else raises `TypeError` |
| Blip.SetMaxLength | src/entities/cap_models/blip.py:175-181 | a non-integer (bools count as integers) raises `TypeError`, an integer below 1 raises `ValueError`, and otherwise exactly that value is stored and nothing else changes |
| Blip.GetModel | src/entities/cap_models/blip.py:191-204 | loads model and processor from the same download path and cache directory; succeeds exactly when both loads do, a failed load of either part propagates that load's exception, and the built model carries the builder's length |
| Blip.BuildAndDescribe | src/entities/cap_models/blip.py:68-75 | a failed build propagates; otherwise the caption is generated with the builder's current maximum length |
| Blip.NewBuilderUsesDefault | src/entities/cap_models/blip.py:123-128 | a freshly constructed builder builds models whose length is the configured default |
| Blip.SetMaxLengthThenBuild | src/entities/cap_models/blip.py:178-204 | after setting a length of at least 1, the built model uses exactly that length |
| Blip.SetMaxLengthLastWins | src/entities/cap_models/blip.py:175-181 | of two successful length settings, the second determines the builder; a failed one leaves the builder as the first left it |
| Blip.PathSettersKeepLength | src/entities/cap_models/blip.py:141-160 | changing the download path or cache directory never changes the length models are built with |
| Translators.GoogleSetLang | src/entities/translators/google.py:63-68 | a non-string raises `TypeError`, an unsupported language raises `ValueError` naming it, and a supported one becomes the target language with nothing else changed |
| Translators.AppSetLang | src/entities/translators/translator.py:43-55 | always raises the plain `Exception` with the fixed-language message, whatever the argument |
| Translators.GoogleTranslate | src/entities/translators/google.py:85-99 | succeeds exactly when the back end does for the current target language, returning the answer's text; a failure becomes the wrapped exception |
| Translators.AppTranslate | src/entities/translators/translator.py:68-73 | succeeds exactly when the back end does, returning its answer unchanged; a failure becomes the wrapped exception |
| Translators.TranslateFailureKeepsCause | src/entities/translators/google.py:94-95 | the wrapped exception is a plain `Exception` whose message is the fixed prefix, the cause's text and `!`, so the cause's text can be read back out of it |
| Translators.GoogleConstructorUnchecked | src/entities/translators/google.py:45-47 | the constructor stores the target language without checking it against the supported set, so translation to an unsupported language is attempted while `set_lang` to it is refused |
| Translators.SetLangThenTranslate | src/entities/translators/google.py:63-99 | after switching to a supported language, translation asks the back end for exactly that language |
| Translators.AppIgnoresSupportLangs | src/entities/translators/translator.py:40-73 | the stored language list has no effect: two app translators differing only in it behave identically in `set_lang` and `translate` |
| CapModelDirector.NewDirector | src/entities/cap_model_director.py:26-27 | a new director keeps its builder and has no translator |
| CapModelDirector.SetTranslator | src/entities/cap_model_director.py:40-42 | `None` clears and a translator sets the translator, keeping the builder; anything else raises `TypeError` and changes nothing |
| CapModelDirector.GetDescript | src/entities/cap_model_director.py:59-70 | a given length goes through `set_max_length` first; a refused length raises before any build with the director unchanged; otherwise the fresh model's caption is returned, translated when a translator is set; the translator is never changed |
| CapModelDirector.TranslatorOptionality | src/entities/cap_model_director.py:64-70 | without a translator the result is the raw caption; with one, a successful caption is passed to the translator and its outcome, success or failure, is the result; a failed caption is the result either way |
| CapModelDirector.LengthCarriesOver | src/entities/cap_model_director.py:59-61 | a length set by one call stays in the builder through a later call that gives none |
| CapModelDirector.SetTranslatorThenDescribe | src/entities/cap_model_director.py:40-70 | after `set_translator(t)` the next description is translated by `t`, and after `set_translator(None)` it is not |
| ImgRepos.SetSession | src/infrastructure/db/repositories/img_repos.py:44-47 | succeeds exactly for a session, which replaces the old one; anything else raises `TypeError` |
| ImgRepos.SessionLastWins | src/infrastructure/db/repositories/img_repos.py:44-47 | of two session settings the last accepted one is kept; a refused argument leaves the earlier session |
| ImgRepos.GetPathByUuid | src/infrastructure/db/repositories/img_repos.py:64-76 | returns the stored path exactly when the session works and the record exists; the two failures raise `SQLAlchemyError` with different messages |
| ImgRepos.SetPathWithUuid | src/infrastructure/db/repositories/img_repos.py:93-104 | succeeds exactly when the commit goes through and the key is new; adds exactly one record (path, no description) and keeps all others |
| ImgRepos.InsertThenLookup | src/infrastructure/db/repositories/img_repos.py:64-98 | reading back a just-inserted identifier yields the inserted path |
| DescRepos.SetSession | src/infrastructure/db/repositories/desc_repos.py:48-51 | succeeds exactly for a session, which replaces the old one; anything else raises `TypeError` |
| DescRepos.SessionLastWins | src/infrastructure/db/repositories/desc_repos.py:48-51 | of two session settings the last accepted one is kept; a refused argument leaves the earlier session |
| DescRepos.SetDescriptionByUuid | src/infrastructure/db/repositories/desc_repos.py:70-86 | succeeds exactly when the commit goes through and the row exists; only that row's description changes, its path and all other rows are kept |
| DescRepos.LastWriteWins | src/infrastructure/db/repositories/desc_repos.py:70-78 | two successive description writes leave the table as the second alone would |
| UploadImg.WriteError | src/use_cases/upload_img.py:56-65 | permission, OS and other write failures map one-to-one onto `PermissionError`, `OSError` and `Exception`, the last carrying the cause |
| UploadImg.Execute | src/use_cases/upload_img.py:54-71 | a failed write changes nothing; otherwise the file holds the bytes; success exactly when the insert goes through, returning the minted identifier recorded with the written path and no description, all older records kept |
| UploadImg.UploadRoundTrip | src/use_cases/upload_img.py:54-69 | after a successful upload, looking up the returned identifier gives a path whose file holds exactly the uploaded bytes |
| UploadImg.SamePathIffSameHash | src/use_cases/upload_img.py:54 | two images get the same path exactly when their hashes are equal |
| UploadImg.EarlierImageKept | src/use_cases/upload_img.py:54-58 | an earlier record's file keeps its bytes exactly when the new upload was written elsewhere or wrote the same bytes |
| Text.DecimalTextRoundTrip | src/use_cases/upload_img.py:54 | the decimal text of a hash reads back as that hash, negative values included |
| Text.DecimalTextInjective | src/use_cases/upload_img.py:54 | distinct hashes have distinct decimal texts |
| Files.JoinPathInjective | src/use_cases/upload_img.py:54 | within one directory, distinct file names give distinct paths |
| Uuids.UuidText | src/interface_adapters/controllers/img_handler.py:61 | the text of an identifier is 36 characters with hyphens at positions 8, 13, 18 and 23 |
| Uuids.UuidTextRoundTrip | src/interface_adapters/controllers/img_handler.py:61 | the 32 non-hyphen characters of the text are hexadecimal digits and, read back most significant first, give the identifier |
| Uuids.UuidTextInjective | src/infrastructure/db/repositories/img_repos.py:95 | distinct identifiers have distinct texts, so rows keyed by `str(uuid)` are keyed by the identifier |
| GetDescript.InitialRegistry | src/use_cases/get_descript.py:37-102 | the registry starts with exactly the `blip` director and the `google` and `apptrans` translators; the director has no translator and a builder loading the BLIP model and processor from the configured save and cache directories at the default length; `google` is the switchable strategy targeting the configured language, `apptrans` the fixed one with its language list |
| GetDescript.ReadError | src/use_cases/get_descript.py:176-185 | permission, OS and other read failures map one-to-one onto `PermissionError`, `OSError` and `Exception`, the last carrying the cause |
| GetDescript.Direct | src/use_cases/get_descript.py:188-202 | only the chosen director changes and its translator becomes the named one or none, whatever it was; a given length of at least 1 reaches its builder and one below 1 is refused with the builder kept; otherwise the result is the caption from the updated builder, passed to the named translator when the caption succeeded, failures included |
| GetDescript.Describe | src/use_cases/get_descript.py:192-205 | the registry is as the director part leaves it; a failed caption, translation or refused length is the result unchanged; a successful one is the result exactly when the update commits on an existing record, otherwise the update's error is; on success exactly that record's description becomes the returned text, every other record kept, and on failure the table is unchanged |
| GetDescript.Execute | src/use_cases/get_descript.py:171-205 | failures are tried in source order (lookup, missing file, read, unknown model, unknown translator), each leaving registry and table unchanged; past them the outcome is the director's |
| GetDescript.ExecuteFrame | src/use_cases/get_descript.py:171-205 | whatever happens, the translators and the director names are kept, the table changes only on success, and success means the record's file was read and both names resolved |
| GetDescript.PersistedAfterSuccess | src/use_cases/get_descript.py:202-205 | after a successful call, the record's stored description is exactly the returned text |
| GetDescript.LookupDecidesFirst | src/use_cases/get_descript.py:172 | an identifier without a record fails with the lookup's message, whatever the names and length |
| DescriptHandler.Get | src/interface_adapters/controllers/descript_handler.py:76-118 | answers 200, 400 or 500; 400 exactly when a check fails, with the first failing check's message and state unchanged; otherwise the use case's exception text is a 500 and its result a 200 |
| DescriptHandler.LengthBoundsInclusive | src/interface_adapters/controllers/descript_handler.py:99-100 | a given length is accepted exactly when minimum ≤ length ≤ maximum, so when the minimum does not exceed the maximum both bounds are themselves accepted; one past either bound is refused; no length is always accepted |
| DescriptHandler.ConfiguredButUnmappedModel | src/interface_adapters/controllers/descript_handler.py:84-116 | a configured model name without a director passes validation and comes back as a 500 carrying the use case's message |
| ImgHandler.Upload | src/interface_adapters/controllers/img_handler.py:56-61 | answers 200 with the identifier's text or 500 with the exception text, never anything else |
| DescriptViewer.Present | src/interface_adapters/presenters/descript_viewer.py:23-27 | a description envelope with code 200 carrying the description unchanged |
| DescriptViewer.PresentError | src/interface_adapters/presenters/descript_viewer.py:44-48 | an error envelope carrying the given error text and code unchanged |
| DescriptViewer.MessagesFixedAndDistinct | src/interface_adapters/presenters/descript_viewer.py:23-48 | the success and error envelopes carry fixed, distinct messages, independent of payload |
| ImgViewer.Present | src/interface_adapters/presenters/img_viewer.py:23-27 | an upload envelope with code 200 carrying the identifier text unchanged |
| ImgViewer.PresentError | src/interface_adapters/presenters/img_viewer.py:44-48 | an error envelope carrying the given error text and code unchanged |
| ImgViewer.MessagesFixedAndDistinct | src/interface_adapters/presenters/img_viewer.py:23-48 | the success and error envelopes carry fixed, distinct messages, independent of payload |
| Service.Serve | src/interface_adapters/controllers/descript_handler.py:76-118 | one request goes through its handler and gets one envelope with code 200, 400 or 500; only a 200 changes the table; a description request never writes files and gets 400 exactly when the handler's checks fail; an upload never gets 400, never touches the registry, and gets 200 exactly when the upload use case succeeds |
| Service.ServeUploadIsHandler | src/interface_adapters/controllers/img_handler.py:56-61 | an upload request's answer and resulting files and table are exactly the upload handler's, with the upload viewer |
| Service.ServeDescribeIsHandler | src/interface_adapters/controllers/descript_handler.py:76-118 | a description request's answer, registry and table are exactly the description handler's, with the description viewer; the files are kept |
| Service.Run | src/interface_adapters/controllers/descript_handler.py:76-118 | a sequence of requests gets exactly one envelope per request, each with code 200, 400 or 500 |
| Service.RunSplit | src/use_cases/get_descript.py:94-102 | running two batches one after the other is running them as one: the second starts in the registry, files and table the first left, and the answers concatenate |
| Service.RunOne | src/use_cases/get_descript.py:94-102 | a one-request run answers as that request served in the starting state and passes on the state that request leaves, so with `Service.RunSplit` every request starts where the previous one ended |
| Service.RunAnswersInOrder | src/use_cases/get_descript.py:37-45 | the i-th answer of a run is what the i-th request gets when served in the state, shared directors included, that the requests before it left |
| Service.RunGrows | src/use_cases/upload_img.py:54-71 | over any run, no file and no record is removed and no record's path changes; every record's file stays on disk |
| Service.RecordsComeFromUploads | src/use_cases/upload_img.py:68-69 | every identifier in the table after a run was there before or was minted by one of its uploads |
| Service.LengthPersistsWithoutRequests | src/use_cases/get_descript.py:94-97 | when no request of a run gives a length, every director's builder ends as it began |
| Service.LengthCarriesOverRequests | src/use_cases/get_descript.py:94-97 | a length accepted by one admissible, readable, dispatchable description request is still the shared builder's length after a following request that gives none |
| Service.UploadThenDescribe | src/use_cases/get_descript.py:171-205 | describing the identifier an upload just returned, with a mapped model and no translator or length, answers 200 with the caption of the uploaded bytes exactly when generation succeeds, else 500 |

## Left out

- The neural caption generation and `from_pretrained` internals: `Blip.Hub` supplies loading and generation as functions, so the PIL decoding and the processor's `batch_decode` are not modelled.
- The googletrans and `translate` back ends and the `asyncio.run` around the Google call: `Translators.Backends` supplies them as functions returning a value or an exception.
- SQLAlchemy itself: sessions, `add`, `commit`, `rollback` and logging are not modelled. Whether a call's session or commit fails is an input, and a rolled-back transaction leaves the table as it was.
- Real file I/O: a write either fully succeeds or fails before changing anything, so partial writes are not modelled. `pathlib` joining is plain concatenation with `/`, without normalisation.
- Python's hash salting: `hash` is a per-process parameter.
- `uuid.UUID` parsing: a parameter. `uuid4()`: the minted identifier is an input. The version bits of a v4 identifier are not modelled.
- ImgRepos.SetSession, DescRepos.SetSession: the session is stored, but no repository operation reads it. Sessions show up only as the per-call fault flags of the lookup, insert and update, because whether a database call fails does not follow from which session object was handed over.
- Configuration loading (YAML, paths, `DEFAULT_LENGTH_DESCRIPTION` and the bounds): these are values passed in. The FastAPI endpoints (which roll back on any non-200 envelope, turn it into an HTTP error carrying only the envelope's message, and refuse non-image or unreadable uploads with 400 before the handler runs), the Gradio web app, the CLI, `build.py` and logging are not modelled.
- Concurrency: requests are handled one at a time. Two requests racing on the shared directors are not modelled.
- The abstract base classes: they only declare the interfaces the concrete classes implement.
- The translator singletons are copied by value into directors. Nothing in the pipeline changes a translator after start-up, so sharing and copying agree.
- Each request fixes how its external calls turn out (one `Env` and one set of fault flags). A back end that answers differently on a retry within one request is not modelled.

=== FILE: blip.dfy ===
/**
 * The BLIP captioning-model builder and the model it produces
 * (`src/entities/cap_models/blip.py`). The builder holds the classes whose
 * `from_pretrained` loads the network and its processor, where to load
 * them from, and the maximum caption length it gives every model it builds.
 * Loading and inference are external: a `Hub` says what `from_pretrained`
 * and the model's generation step return.
 */
module Blip {
  import opened Runtime
  import opened Files

  /** A class with a `from_pretrained` constructor (the network or its processor). */
  datatype Loader = Loader(name: string)

  /** What `from_pretrained` returned: an opaque handle. */
  datatype Weights = Weights(handle: nat)

  /** External behaviour for one request. `load(cls, path, cacheDir)` is
      `cls.from_pretrained(path, cache_dir=cacheDir)`; `generate(model,
      processor, img, maxLength)` is the decode/generate/batch_decode chain
      of `BLIPCapModel.descript`, including its failures. */
  datatype Hub = Hub(
    load: (Loader, string, Option<string>) -> Result<Weights>,
    generate: (Weights, Weights, Bytes, int) -> Result<string>
  )

  /** `BLIPCapModel`: loaded network and processor plus the caption length bound. */
  datatype CapModel = CapModel(model: Weights, processor: Weights, maxLength: int)

  /** `BLIPCapModelBuilder`'s fields. */
  datatype Builder = Builder(
    model: Loader,
    processor: Loader,
    downloadPath: string,
    cacheDir: Option<string>,
    maxLength: int
  )

  const DownloadPathTypeMsg: string := "Путь к папке предобученных моделей должен быть строкой."
  const CacheDirTypeMsg: string := "Путь к папке кеша предобученных моделей должен быть строкой."
  const MaxLengthTypeMsg: string := "Максимальная длина описания изображения должна быть целым числом."
  const MaxLengthValueMsg: string := "Максимальная длина описания изображения должна быть больше 1 символа."

  /** The constructor: the length starts at the configured default, which is
      not checked. */
  function NewBuilder(
    model: Loader, processor: Loader, downloadPath: string, cacheDir: Option<string>, defaultLength: int
  ): Builder
  {
    Builder(model, processor, downloadPath, cacheDir, defaultLength)
  }

  /** `set_download_path`: only a string is accepted, and only that field changes. */
  function SetDownloadPath(b: Builder, v: PyValue): (r: Result<Builder>)
    ensures r.Ok? <==> v.PyStr?
    ensures r.Ok? ==> r.value.downloadPath == v.s && r.value.(downloadPath := b.downloadPath) == b
    ensures r.Err? ==> r.error == Exc(TypeError, DownloadPathTypeMsg)
  {
    if !v.PyStr? then Err(Exc(TypeError, DownloadPathTypeMsg))
    else Ok(b.(downloadPath := v.s))
  }

  /** `set_cache_dir`: only a string is accepted (not `None`, although the
      constructor accepts `None`), and only that field changes. */
  function SetCacheDir(b: Builder, v: PyValue): (r: Result<Builder>)
    ensures r.Ok? <==> v.PyStr?
    ensures r.Ok? ==> r.value.cacheDir == Some(v.s) && r.value.(cacheDir := b.cacheDir) == b
    ensures r.Err? ==> r.error == Exc(TypeError, CacheDirTypeMsg)
  {
    if !v.PyStr? then Err(Exc(TypeError, CacheDirTypeMsg))
    else Ok(b.(cacheDir := Some(v.s)))
  }

  /** `set_max_length`: a non-integer raises `TypeError`, an integer below 1
      raises `ValueError`, and any integer from 1 up is stored as given. */
  function SetMaxLength(b: Builder, v: PyValue): (r: Result<Builder>)
    ensures r.Ok? <==> (AsInt(v).Some? && AsInt(v).value >= 1)
    ensures r.Ok? ==> r.value.maxLength == AsInt(v).value && r.value.(maxLength := b.maxLength) == b
    ensures AsInt(v).None? ==> r == Err(Exc(TypeError, MaxLengthTypeMsg))
    ensures AsInt(v).Some? && AsInt(v).value < 1 ==> r == Err(Exc(ValueError, MaxLengthValueMsg))
  {
    match AsInt(v)
    case None => Err(Exc(TypeError, MaxLengthTypeMsg))
    case Some(n) => if n < 1 then Err(Exc(ValueError, MaxLengthValueMsg)) else Ok(b.(maxLength := n))
  }

  /** `get_model`: loads the network, then the processor, both from the
      builder's download path and cache directory, and hands them the
      builder's current length. The builder itself is a value and stays as
      it was. */
  function GetModel(hub: Hub, b: Builder): (r: Result<CapModel>)
    ensures r.Ok? <==> hub.load(b.model, b.downloadPath, b.cacheDir).Ok?
                       && hub.load(b.processor, b.downloadPath, b.cacheDir).Ok?
    ensures r.Ok? ==> r.value.maxLength == b.maxLength
    ensures r.Ok? ==> Ok(r.value.model) == hub.load(b.model, b.downloadPath, b.cacheDir)
                      && Ok(r.value.processor) == hub.load(b.processor, b.downloadPath, b.cacheDir)
    ensures hub.load(b.model, b.downloadPath, b.cacheDir).Err? ==> r == hub.load(b.model, b.downloadPath, b.cacheDir).PropagateFailure()
    ensures hub.load(b.model, b.downloadPath, b.cacheDir).Ok? && hub.load(b.processor, b.downloadPath, b.cacheDir).Err? ==>
              r == hub.load(b.processor, b.downloadPath, b.cacheDir).PropagateFailure()
  {
    var model :- hub.load(b.model, b.downloadPath, b.cacheDir);
    var processor :- hub.load(b.processor, b.downloadPath, b.cacheDir);
    Ok(CapModel(model, processor, b.maxLength))
  }

  /** Build a fresh model and caption the image with it (`get_model`, then
      `BLIPCapModel.descript`, whose generation is bounded by the model's own
      length): what one run of the director does before any translation. */
  function BuildAndDescribe(hub: Hub, b: Builder, img: Bytes): (r: Result<string>)
    ensures GetModel(hub, b).Err? ==> r == GetModel(hub, b).PropagateFailure()
    ensures GetModel(hub, b).Ok? ==> r == hub.generate(GetModel(hub, b).value.model, GetModel(hub, b).value.processor, img, b.maxLength)
  {
    var m :- GetModel(hub, b);
    hub.generate(m.model, m.processor, img, m.maxLength)
  }

  /** A freshly constructed builder builds models bounded by the default length. */
  lemma NewBuilderUsesDefault(
    hub: Hub, model: Loader, processor: Loader, downloadPath: string, cacheDir: Option<string>, defaultLength: int
  )
    ensures var b := NewBuilder(model, processor, downloadPath, cacheDir, defaultLength);
            GetModel(hub, b).Ok? ==> GetModel(hub, b).value.maxLength == defaultLength
  {
  }

  /** Any length from 1 up, 1 included, is what every later build uses. */
  lemma SetMaxLengthThenBuild(hub: Hub, b: Builder, n: int)
    requires n >= 1
    ensures SetMaxLength(b, PyInt(n)).Ok?
    ensures GetModel(hub, SetMaxLength(b, PyInt(n)).value).Ok? ==>
              GetModel(hub, SetMaxLength(b, PyInt(n)).value).value.maxLength == n
  {
  }

  /** The last accepted length wins; a rejected one leaves the earlier in effect. */
  lemma SetMaxLengthLastWins(b: Builder, v: PyValue, w: PyValue)
    requires SetMaxLength(b, v).Ok?
    ensures SetMaxLength(SetMaxLength(b, v).value, w).Ok? ==>
              SetMaxLength(SetMaxLength(b, v).value, w) == SetMaxLength(b, w)
    ensures SetMaxLength(SetMaxLength(b, v).value, w).Err? ==>
              SetMaxLength(b, w).Err? && SetMaxLength(b, v).value.maxLength == AsInt(v).value
  {
  }

  /** Paths and the length are independent settings: changing the download
      path or cache directory does not change the length a model gets. */
  lemma PathSettersKeepLength(b: Builder, v: PyValue)
    ensures SetDownloadPath(b, v).Ok? ==> SetDownloadPath(b, v).value.maxLength == b.maxLength
    ensures SetCacheDir(b, v).Ok? ==> SetCacheDir(b, v).value.maxLength == b.maxLength
  {
  }
}

=== FILE: cap_model_director.dfy ===
/**
 * `CapModelDirector` (`src/entities/cap_model_director.py`): one builder and
 * an optional translator. Describing an image optionally forwards a length
 * to the builder, builds a model, captions the image and, when a translator
 * is set, translates the caption. Its only state change besides the
 * builder's length is `set_translator`.
 */
module CapModelDirector {
  import opened Runtime
  import opened Files
  import opened Blip
  import opened Translators

  datatype Director = Director(builder: Builder, translator: Option<Translator>)

  /** What `set_translator` can be handed: `None`, an `AbstractTranslator`
      instance, or anything else. */
  datatype TranslatorArg = NoTranslator | SomeTranslator(t: Translator) | NotATranslator

  /** Result of `get_descript`: the director afterwards (its builder may hold
      a new length) and what the call returned or raised. */
  datatype Described = Described(director: Director, result: Result<string>)

  const TranslatorTypeMsg: string := "Неверный тип переводчика описания изображения!"

  /** A new director has no translator. */
  function NewDirector(b: Builder): (d: Director)
    ensures d.translator.None? && d.builder == b
  {
    Director(b, None)
  }

  /** `set_translator`: `None` clears, a translator replaces, anything else
      raises `TypeError`. */
  function SetTranslator(d: Director, arg: TranslatorArg): (r: Result<Director>)
    ensures r.Err? <==> arg.NotATranslator?
    ensures r.Err? ==> r.error == Exc(TypeError, TranslatorTypeMsg)
    ensures r.Ok? ==> r.value.builder == d.builder
    ensures arg.NoTranslator? ==> r.Ok? && r.value.translator.None?
    ensures arg.SomeTranslator? ==> r.Ok? && r.value.translator == Some(arg.t)
  {
    match arg
    case NoTranslator => Ok(d.(translator := None))
    case SomeTranslator(t) => Ok(d.(translator := Some(t)))
    case NotATranslator => Err(Exc(TypeError, TranslatorTypeMsg))
  }

  /** `get_descript(img, max_length)`. */
  function GetDescript(hub: Hub, bk: Backends, d: Director, img: Bytes, maxLength: Option<int>): (r: Described)
    // The translator is never touched, and the builder changes only by
    // taking a length that was given and accepted.
    ensures r.director.translator == d.translator
    ensures maxLength.None? ==> r.director.builder == d.builder
    ensures maxLength.Some? && maxLength.value >= 1 ==>
              r.director.builder == d.builder.(maxLength := maxLength.value)
    // A rejected length propagates before any model is built.
    ensures maxLength.Some? && maxLength.value < 1 ==>
              r.director == d && r.result == Err(Exc(ValueError, MaxLengthValueMsg))
    // Otherwise: the caption from a fresh build with the builder's length,
    // translated if and only if a translator is set; a build or caption
    // failure propagates and no translation is attempted.
    ensures (maxLength.None? || maxLength.value >= 1) && d.translator.None? ==>
              r.result == BuildAndDescribe(hub, r.director.builder, img)
    ensures (maxLength.None? || maxLength.value >= 1) && d.translator.Some? ==>
              r.result == match BuildAndDescribe(hub, r.director.builder, img)
                          case Ok(c) => Translate(bk, d.translator.value, c)
                          case Err(e) => Err(e)
  {
    var b :=
      if maxLength.Some? then SetMaxLength(d.builder, PyInt(maxLength.value))
      else Ok(d.builder);
    match b
    case Err(e) => Described(d, Err(e))
    case Ok(b') =>
      var d' := d.(builder := b');
      match BuildAndDescribe(hub, b', img)
      case Err(e) => Described(d', Err(e))
      case Ok(caption) =>
        match d.translator
        case None => Described(d', Ok(caption))
        case Some(t) => Described(d', Translate(bk, t, caption))
  }

  /** Without a translator the result is the caption exactly; with one it is
      the translation of that caption. */
  lemma TranslatorOptionality(hub: Hub, bk: Backends, d: Director, img: Bytes, maxLength: Option<int>)
    requires maxLength.None? || maxLength.value >= 1
    ensures var r := GetDescript(hub, bk, d, img, maxLength);
            var raw := BuildAndDescribe(hub, r.director.builder, img);
            && (d.translator.None? ==> r.result == raw)
            && (d.translator.Some? && raw.Ok? ==> r.result == Translate(bk, d.translator.value, raw.value))
            && (raw.Err? ==> r.result == raw)
  {
  }

  /** The builder is shared between calls: a length set by one call stays in
      effect for a later call that gives none. */
  lemma LengthCarriesOver(hub: Hub, bk: Backends, d: Director, img1: Bytes, img2: Bytes, n: int)
    requires n >= 1
    ensures var d1 := GetDescript(hub, bk, d, img1, Some(n)).director;
            GetDescript(hub, bk, d1, img2, None).director.builder.maxLength == n
  {
  }

  /** Setting a translator and describing returns the translation of the
      caption; clearing it returns the caption itself. */
  lemma SetTranslatorThenDescribe(hub: Hub, bk: Backends, d: Director, arg: TranslatorArg, img: Bytes)
    requires !arg.NotATranslator?
    ensures var d1 := SetTranslator(d, arg).value;
            var r := GetDescript(hub, bk, d1, img, None);
            var raw := BuildAndDescribe(hub, d.builder, img);
            && (arg.NoTranslator? ==> r.result == raw)
            && (arg.SomeTranslator? && raw.Ok? ==> r.result == Translate(bk, arg.t, raw.value))
  {
  }
}

=== FILE: files.dfy ===
/**
 * The image directory as the pipeline sees it: a map from path to file
 * contents, plus the kinds of failure an `open`/`read`/`write` can raise.
 * Which failure (if any) a given call meets is an input of the operation
 * that performs it.
 */
module Files {

  newtype Byte = x: int | 0 <= x < 256

  type Bytes = seq<Byte>

  /** Path text to file contents; a path is present exactly when it exists. */
  type FileSystem = map<string, Bytes>

  /** A raised `PermissionError`, another `OSError`, or any other exception
      with its text. `PermissionError` is a subclass of `OSError`, so it is
      the one the source's first `except` clause catches. */
  datatype IoFailure = PermissionDenied | OsFailure | OtherFailure(cause: string)

  /** `Path(dir).joinpath(name)` rendered as text, for a directory given
      without a trailing separator and a name with no separator in it. */
  function JoinPath(dir: string, name: string): string {
    dir + "/" + name
  }

  /** Within one directory, distinct names give distinct paths. */
  lemma JoinPathInjective(dir: string, a: string, b: string)
    ensures JoinPath(dir, a) == JoinPath(dir, b) <==> a == b
  {
    if JoinPath(dir, a) == JoinPath(dir, b) {
      var k := |dir + "/"|;
      assert JoinPath(dir, a)[k..] == a;
      assert JoinPath(dir, b)[k..] == b;
    }
  }
}

=== FILE: get_descript.dfy ===
/**
 * The `GetDescript` use case (`src/use_cases/get_descript.py`) and the
 * process-wide strategy instances it dispatches to. The directors and
 * translators are module-level singletons in the source, so their state (the
 * builder's length, the director's translator) outlives a request: here it
 * is the `Registry` each call receives and returns.
 */
module GetDescript {
  import opened Runtime
  import opened Files
  import opened Uuids
  import opened Blip
  import opened Translators
  import CapModelDirector
  import opened Records
  import opened ImgRepos
  import opened DescRepos

  /** The name -> instance mappings the use case dispatches on. */
  datatype Registry = Registry(
    directors: map<string, CapModelDirector.Director>,
    translators: map<string, Translator>
  )

  /** How captioning and translation behave during one request. */
  datatype Env = Env(hub: Hub, backends: Backends)

  /** Which external steps of one request raise: the record lookup, reading
      the image file, and the description update. */
  datatype DescribeFaults = DescribeFaults(lookupFails: bool, readFault: Option<IoFailure>, commitFails: bool)

  /** The registry and table afterwards, and the description or the exception. */
  datatype Outcome = Outcome(registry: Registry, store: Store, result: Result<string>)

  /** The names hard-coded in the two mappings. */
  const BlipName: string := "blip"
  const GoogleName: string := "google"
  const AppTransName: string := "apptrans"

  /** The language list the fixed-language translator is constructed with
      (duplicates included); nothing ever reads it. */
  const AppTransLangs: seq<string> := [
    "af", "sq", "am", "ar", "hy", "az", "bjs", "rm", "eu", "bem", "bn", "be", "bi", "bs",
    "br", "bg", "my", "ca", "ceb", "ch", "zh", "zh", "zdj", "cop", "aig", "bah", "gcl",
    "gyn", "jam", "svc", "vic", "ht", "acf", "crs", "pov", "hr", "cs", "da", "nl", "dz",
    "en", "eo", "et", "fn", "fo", "fi", "fr", "gl", "ka", "de", "el", "grc", "gu", "ha",
    "haw", "he", "hi", "hu", "is", "id", "kl", "ga", "it", "ja", "jv", "kea", "kab", "kn",
    "kk", "km", "rw", "rn", "ko", "ku", "ckb", "ky", "lo", "la", "lv", "lt", "lb", "mk",
    "mg", "ms", "dv", "mt", "gv", "mi", "mh", "men", "mn", "mfe", "ne", "niu", "no", "ny",
    "ur", "pau", "pa", "pap", "ps", "fa", "pis", "pl", "pt", "pot", "qu", "ro", "ru", "sm",
    "sg", "gd", "sr", "sn", "si", "sk", "sl", "so", "st", "es", "srn", "sw", "sv", "de",
    "syc", "tl", "tg", "tmh", "ta", "te", "tet", "th", "bo", "ti", "tpi", "tkl", "to", "tn",
    "tr", "tk", "tvl", "uk", "ppk", "uz", "vi", "wls", "cy", "wo", "xh", "yi", "zu"
  ]

  const ReadPermissionMsg: string := "Нет прав для получения изображения!"
  const ReadOsMsg: string := "Невозможно получить изображение!"
  const ReadUnknownPrefix: string := "Неизвестная ошибка при получении изображения: "

  function MissingFileMsg(path: string): string {
    "Пути к файлу " + path + " не существует!"
  }

  function UnknownModelMsg(name: string): string {
    "Нет такой captioning-модели: " + name
  }

  function UnknownTranslatorMsg(name: string): string {
    "Нет такого переводчика: " + name
  }

  /** The mappings as the process starts: one BLIP director whose builder
      starts at the default length, and the two translators, both targeting
      the configured language. */
  function InitialRegistry(
    blipModel: Loader, blipProcessor: Loader, saveDir: string, cacheDir: Option<string>, defaultLength: int,
    lang: string, googleBackend: Backend, googleLangs: set<string>, appBackend: Backend
  ): (reg: Registry)
    ensures reg.directors.Keys == {BlipName}
    ensures reg.translators.Keys == {GoogleName, AppTransName}
    ensures reg.directors[BlipName].translator.None?
    ensures reg.directors[BlipName].builder.maxLength == defaultLength
    // The BLIP builder loads both parts from the configured save and cache
    // directories.
    ensures var b := reg.directors[BlipName].builder;
            b.model == blipModel && b.processor == blipProcessor
            && b.downloadPath == saveDir && b.cacheDir == cacheDir
    // `google` is the switchable strategy, targeting the configured language
    // among the back end's languages; `apptrans` is the fixed one.
    ensures reg.translators[GoogleName] == Google(GoogleTranslator(googleBackend, lang, googleLangs))
    ensures reg.translators[AppTransName] == App(AppTranslator(appBackend, AppTransLangs))
  {
    Registry(
      map[BlipName := CapModelDirector.NewDirector(NewBuilder(blipModel, blipProcessor, saveDir, cacheDir, defaultLength))],
      map[GoogleName := NewGoogle(googleBackend, lang, googleLangs), AppTransName := NewApp(appBackend, AppTransLangs)])
  }

  /** The three `except` clauses around the read, tried in order. */
  function ReadError(f: IoFailure): (e: Exc)
    ensures e.kind == PermissionError <==> f.PermissionDenied?
    ensures e.kind == OSError <==> f.OsFailure?
    ensures e.kind == Exception <==> f.OtherFailure?
    ensures f.OtherFailure? ==> e.msg == ReadUnknownPrefix + f.cause + "!"
  {
    match f
    case PermissionDenied => Exc(PermissionError, ReadPermissionMsg)
    case OsFailure => Exc(OSError, ReadOsMsg)
    case OtherFailure(cause) => Exc(Exception, ReadUnknownPrefix + cause + "!")
  }

  /** The record exists, its file exists, and reading it succeeds. */
  predicate ImageReadable(store: Store, fs: FileSystem, id: Uuid, faults: DescribeFaults) {
    !faults.lookupFails && id in store && store[id].path in fs && faults.readFault.None?
  }

  /** Both names resolve in the use case's own mappings. */
  predicate Dispatchable(reg: Registry, nameModel: string, nameTrans: Option<string>) {
    nameModel in reg.directors && (nameTrans.None? || nameTrans.value in reg.translators)
  }

  /** The translator the director is given: the named one, or none. */
  function Resolved(reg: Registry, nameTrans: Option<string>): Option<Translator>
    requires nameTrans.None? || nameTrans.value in reg.translators
  {
    if nameTrans.Some? then Some(reg.translators[nameTrans.value]) else None
  }

  /** The registry afterwards and what the chosen director returned or raised. */
  datatype Directed = Directed(registry: Registry, result: Result<string>)

  /** The director's part of `execute`: give the chosen director the named
      translator (or none), then ask it for the description. */
  function Direct(
    env: Env, reg: Registry, img: Bytes, nameModel: string, nameTrans: Option<string>, maxLength: Option<int>
  ): (r: Directed)
    requires Dispatchable(reg, nameModel, nameTrans)
    // Only the chosen director changes, and its translator is always the
    // one this request named (or none): nothing carries over from the last request.
    ensures r.registry.translators == reg.translators
    ensures r.registry.directors.Keys == reg.directors.Keys
    ensures forall n :: n in reg.directors && n != nameModel ==> r.registry.directors[n] == reg.directors[n]
    ensures r.registry.directors[nameModel].translator == Resolved(reg, nameTrans)
    // The length reaches the builder unchanged.
    ensures maxLength.None? ==> r.registry.directors[nameModel].builder == reg.directors[nameModel].builder
    ensures maxLength.Some? && maxLength.value >= 1 ==>
              r.registry.directors[nameModel].builder == reg.directors[nameModel].builder.(maxLength := maxLength.value)
    // A length below 1 (possible when the configured minimum is below 1) is
    // refused by the builder after the translator was already set.
    ensures maxLength.Some? && maxLength.value < 1 ==>
              && r.registry.directors[nameModel].builder == reg.directors[nameModel].builder
              && r.result == Err(Exc(ValueError, MaxLengthValueMsg))
    // Otherwise the result is the caption of the image from the updated
    // builder, handed to the named translator when it succeeded.
    ensures (maxLength.None? || maxLength.value >= 1) ==>
              var raw := BuildAndDescribe(env.hub, r.registry.directors[nameModel].builder, img);
              r.result == if nameTrans.None? || raw.Err? then raw
                          else Translate(env.backends, reg.translators[nameTrans.value], raw.value)
  {
    var arg := if nameTrans.Some? then CapModelDirector.SomeTranslator(reg.translators[nameTrans.value])
               else CapModelDirector.NoTranslator;
    var director := CapModelDirector.SetTranslator(reg.directors[nameModel], arg).value;
    var described := CapModelDirector.GetDescript(env.hub, env.backends, director, img, maxLength);
    Directed(reg.(directors := reg.directors[nameModel := described.director]), described.result)
  }

  /** The part of `execute` after the image is read and both names
      resolved: the director's description, then persisting it. */
  function Describe(
    env: Env, reg: Registry, store: Store, id: Uuid, img: Bytes,
    nameModel: string, nameTrans: Option<string>, maxLength: Option<int>, commitFails: bool
  ): (r: Outcome)
    requires Dispatchable(reg, nameModel, nameTrans)
    // The registry is left as the director part leaves it, whatever happens next.
    ensures r.registry == Direct(env, reg, img, nameModel, nameTrans, maxLength).registry
    // The description is the caption of the image, translated by the named
    // translator if any.
    ensures r.result.Ok? ==>
              var raw := BuildAndDescribe(env.hub, r.registry.directors[nameModel].builder, img);
              && raw.Ok?
              && (nameTrans.None? ==> r.result.value == raw.value)
              && (nameTrans.Some? ==> r.result == Translate(env.backends, reg.translators[nameTrans.value], raw.value))
    // Conversely, a successful caption (and translation) stored by a working
    // commit on an existing record is the result; a director failure or a
    // failed update is passed on unchanged.
    ensures maxLength.Some? && maxLength.value < 1 ==> r.result == Err(Exc(ValueError, MaxLengthValueMsg))
    ensures (maxLength.None? || maxLength.value >= 1) ==>
              var raw := BuildAndDescribe(env.hub, r.registry.directors[nameModel].builder, img);
              var out := if nameTrans.None? || raw.Err? then raw
                         else Translate(env.backends, reg.translators[nameTrans.value], raw.value);
              && (out.Err? ==> r.result == out)
              && (out.Ok? && !commitFails && id in store ==> r.result == Ok(out.value))
              && (out.Ok? && (commitFails || id !in store) ==>
                    r.result == SetDescriptionByUuid(store, id, out.value, commitFails).PropagateFailure())
    // The description is written only after the director succeeds, and
    // exactly this record's description becomes the returned text.
    ensures r.result.Err? ==> r.store == store
    ensures r.result.Ok? ==> !commitFails && id in store
    ensures r.result.Ok? ==> r.store.Keys == store.Keys
    ensures r.result.Ok? ==> r.store[id] == Record(store[id].path, Some(r.result.value))
    ensures r.result.Ok? ==> forall k :: k in store && k != id ==> r.store[k] == store[k]
  {
    var d := Direct(env, reg, img, nameModel, nameTrans, maxLength);
    match d.result
    case Err(e) => Outcome(d.registry, store, Err(e))
    case Ok(desc) =>
      match SetDescriptionByUuid(store, id, desc, commitFails)
      case Err(e) => Outcome(d.registry, store, Err(e))
      case Ok(store') => Outcome(d.registry, store', Ok(desc))
  }

  /** `execute(uuid, name_cap_model, name_translator, max_length)`. */
  function Execute(
    env: Env, reg: Registry, fs: FileSystem, store: Store,
    id: Uuid, nameModel: string, nameTrans: Option<string>, maxLength: Option<int>, faults: DescribeFaults
  ): (r: Outcome)
    // The record lookup comes first: its failure is the result, whatever the names.
    ensures faults.lookupFails || id !in store ==>
              r == Outcome(reg, store, GetPathByUuid(store, id, faults.lookupFails).PropagateFailure())
    // Then the file must exist and be readable.
    ensures !faults.lookupFails && id in store && store[id].path !in fs ==>
              r == Outcome(reg, store, Err(Exc(ValueError, MissingFileMsg(store[id].path))))
    ensures !faults.lookupFails && id in store && store[id].path in fs && faults.readFault.Some? ==>
              r == Outcome(reg, store, Err(ReadError(faults.readFault.value)))
    // Then the names must resolve in the use case's own mappings.
    ensures ImageReadable(store, fs, id, faults) && nameModel !in reg.directors ==>
              r == Outcome(reg, store, Err(Exc(ValueError, UnknownModelMsg(nameModel))))
    ensures ImageReadable(store, fs, id, faults) && nameModel in reg.directors
            && nameTrans.Some? && nameTrans.value !in reg.translators ==>
              r == Outcome(reg, store, Err(Exc(ValueError, UnknownTranslatorMsg(nameTrans.value))))
    // Only then is the stored image described.
    ensures ImageReadable(store, fs, id, faults) && Dispatchable(reg, nameModel, nameTrans) ==>
              r == Describe(env, reg, store, id, fs[store[id].path], nameModel, nameTrans, maxLength, faults.commitFails)
  {
    match GetPathByUuid(store, id, faults.lookupFails)
    case Err(e) => Outcome(reg, store, Err(e))
    case Ok(path) =>
      if path !in fs then Outcome(reg, store, Err(Exc(ValueError, MissingFileMsg(path))))
      else if faults.readFault.Some? then Outcome(reg, store, Err(ReadError(faults.readFault.value)))
      else if nameModel !in reg.directors then Outcome(reg, store, Err(Exc(ValueError, UnknownModelMsg(nameModel))))
      else if nameTrans.Some? && nameTrans.value !in reg.translators then
        Outcome(reg, store, Err(Exc(ValueError, UnknownTranslatorMsg(nameTrans.value))))
      else
        Describe(env, reg, store, id, fs[path], nameModel, nameTrans, maxLength, faults.commitFails)
  }

  /** Whatever happens, the registry keeps its names and translators, and the
      table changes only on success. */
  lemma ExecuteFrame(
    env: Env, reg: Registry, fs: FileSystem, store: Store,
    id: Uuid, nameModel: string, nameTrans: Option<string>, maxLength: Option<int>, faults: DescribeFaults
  )
    ensures var r := Execute(env, reg, fs, store, id, nameModel, nameTrans, maxLength, faults);
            && r.registry.translators == reg.translators
            && r.registry.directors.Keys == reg.directors.Keys
            && (r.result.Err? ==> r.store == store)
            && (r.result.Ok? ==> ImageReadable(store, fs, id, faults) && Dispatchable(reg, nameModel, nameTrans))
  {
  }

  /** Persistence after success: reading the record back by the same
      identifier shows the returned text, and its path is unchanged. */
  lemma PersistedAfterSuccess(
    env: Env, reg: Registry, fs: FileSystem, store: Store,
    id: Uuid, nameModel: string, nameTrans: Option<string>, maxLength: Option<int>, faults: DescribeFaults
  )
    ensures var r := Execute(env, reg, fs, store, id, nameModel, nameTrans, maxLength, faults);
            r.result.Ok? ==>
              && id in r.store
              && r.store[id].description == Some(r.result.value)
              && GetPathByUuid(r.store, id, false) == GetPathByUuid(store, id, false)
  {
  }

  /** A missing record fails the same way whatever model, translator or
      length is asked for. */
  lemma LookupDecidesFirst(
    env: Env, reg: Registry, fs: FileSystem, store: Store, id: Uuid, faults: DescribeFaults,
    m1: string, t1: Option<string>, l1: Option<int>,
    m2: string, t2: Option<string>, l2: Option<int>
  )
    requires faults.lookupFails || id !in store
    ensures Execute(env, reg, fs, store, id, m1, t1, l1, faults) == Execute(env, reg, fs, store, id, m2, t2, l2, faults)
  {
  }
}

=== FILE: handlers.dfy ===
/**
 * The two request handlers (`src/interface_adapters/controllers/`). Each
 * turns one request into exactly one envelope: `DescriptHandler.get`
 * validates before calling the use case (failures give 400), maps any
 * exception from the use case to 500 and a result to 200; `ImgHandler.upload`
 * maps the upload's exception to 500 and its identifier to 200.
 */
module DescriptHandler {
  import opened Runtime
  import opened Files
  import opened Text
  import opened Uuids
  import opened Records
  import opened Dto
  import opened Viewers
  import opened GetDescript

  /** The configured names and length bounds the handler checks against
      (`CAP_MODEL_SETTINGS.keys()`, `TRANS_MODEL_SETTINGS.keys()`,
      `MIN_LENGTH_DESCRIPTION`, `MAX_LENGTH_DESCRIPTION`). Nothing relates
      them to the use case's own mappings or orders the two bounds. */
  datatype Config = Config(modelNames: set<string>, translatorNames: set<string>, minLength: int, maxLength: int)

  /** The registry and table afterwards, and the envelope returned. */
  datatype Handled = Handled(registry: Registry, store: Store, response: Response)

  function BadUuidMsg(text: string): string {
    "UUID " + text + " некорректный!"
  }

  function UnknownModelNameMsg(name: string): string {
    "Captioning-модели с именем " + name + " не существует!"
  }

  function UnknownTranslatorNameMsg(name: string): string {
    "Переводчик с именем " + name + " не существует!"
  }

  function LengthBoundsMsg(cfg: Config): string {
    "Максимальная длина описания должна быть больше " + DecimalText(cfg.minLength)
    + " и меньше " + DecimalText(cfg.maxLength) + " символов!"
  }

  /** A length is acceptable when absent or within the bounds, both included. */
  predicate LengthInBounds(cfg: Config, maxLength: Option<int>) {
    maxLength.None? || (cfg.minLength <= maxLength.value && maxLength.value <= cfg.maxLength)
  }

  /** The request passes every check the handler makes before the use case. */
  predicate Admissible(
    cfg: Config, parse: string -> Option<Uuid>,
    uuidText: string, nameModel: string, nameTrans: Option<string>, maxLength: Option<int>
  ) {
    && parse(uuidText).Some?
    && nameModel in cfg.modelNames
    && (nameTrans.None? || nameTrans.value in cfg.translatorNames)
    && LengthInBounds(cfg, maxLength)
  }

  /** `get(uuid, name_cap_model, name_translator, max_length)`; `parse` is
      `uuid.UUID` on text, `None` where it raises `ValueError`. */
  function Get(
    cfg: Config, parse: string -> Option<Uuid>, pres: Viewer,
    env: Env, reg: Registry, fs: FileSystem, store: Store,
    uuidText: string, nameModel: string, nameTrans: Option<string>, maxLength: Option<int>,
    faults: DescribeFaults
  ): (r: Handled)
    // Exactly one envelope, with one of three codes; 400 exactly when a
    // check fails, and then the use case is never run.
    ensures r.response.code == 200 || r.response.code == 400 || r.response.code == 500
    ensures r.response.code == 400 <==> !Admissible(cfg, parse, uuidText, nameModel, nameTrans, maxLength)
    ensures !Admissible(cfg, parse, uuidText, nameModel, nameTrans, maxLength) ==>
              r.registry == reg && r.store == store
    // The checks run in a fixed order and the first failure decides.
    ensures parse(uuidText).None? ==> r.response == PresentError(pres, BadUuidMsg(uuidText), 400)
    ensures parse(uuidText).Some? && nameModel !in cfg.modelNames ==>
              r.response == PresentError(pres, UnknownModelNameMsg(nameModel), 400)
    ensures parse(uuidText).Some? && nameModel in cfg.modelNames
            && nameTrans.Some? && nameTrans.value !in cfg.translatorNames ==>
              r.response == PresentError(pres, UnknownTranslatorNameMsg(nameTrans.value), 400)
    ensures parse(uuidText).Some? && nameModel in cfg.modelNames
            && (nameTrans.None? || nameTrans.value in cfg.translatorNames)
            && !LengthInBounds(cfg, maxLength) ==>
              r.response == PresentError(pres, LengthBoundsMsg(cfg), 400)
    // Past the checks, the use case gets the parsed identifier and the other
    // arguments unchanged; its exception text becomes a 500, its result a 200.
    ensures Admissible(cfg, parse, uuidText, nameModel, nameTrans, maxLength) ==>
              var o := Execute(env, reg, fs, store, parse(uuidText).value, nameModel, nameTrans, maxLength, faults);
              && r.registry == o.registry && r.store == o.store
              && (o.result.Err? ==> r.response == PresentError(pres, o.result.error.msg, 500))
              && (o.result.Ok? ==> r.response == Present(pres, o.result.value))
  {
    match parse(uuidText)
    case None => Handled(reg, store, PresentError(pres, BadUuidMsg(uuidText), 400))
    case Some(id) =>
      if nameModel !in cfg.modelNames then
        Handled(reg, store, PresentError(pres, UnknownModelNameMsg(nameModel), 400))
      else if nameTrans.Some? && nameTrans.value !in cfg.translatorNames then
        Handled(reg, store, PresentError(pres, UnknownTranslatorNameMsg(nameTrans.value), 400))
      else if maxLength.Some? && (maxLength.value < cfg.minLength || maxLength.value > cfg.maxLength) then
        Handled(reg, store, PresentError(pres, LengthBoundsMsg(cfg), 400))
      else
        var o := Execute(env, reg, fs, store, id, nameModel, nameTrans, maxLength, faults);
        match o.result
        case Err(e) => Handled(o.registry, o.store, PresentError(pres, e.msg, 500))
        case Ok(desc) => Handled(o.registry, o.store, Present(pres, desc))
  }

  /** A length is accepted exactly when it lies between the bounds, both
      included (so, when the minimum does not exceed the maximum, both bounds
      are themselves accepted); just outside either bound is refused, and no
      length is always accepted. */
  lemma LengthBoundsInclusive(cfg: Config, n: int)
    ensures cfg.minLength <= n <= cfg.maxLength <==> LengthInBounds(cfg, Some(n))
    ensures LengthInBounds(cfg, None)
    ensures !LengthInBounds(cfg, Some(cfg.minLength - 1)) && !LengthInBounds(cfg, Some(cfg.maxLength + 1))
  {
  }

  /** A model name the configuration knows but the use case's mapping does
      not passes validation and then fails inside the use case: 500, not 400. */
  lemma ConfiguredButUnmappedModel(
    cfg: Config, parse: string -> Option<Uuid>, pres: Viewer,
    env: Env, reg: Registry, fs: FileSystem, store: Store,
    uuidText: string, nameModel: string, nameTrans: Option<string>, maxLength: Option<int>,
    faults: DescribeFaults
  )
    requires Admissible(cfg, parse, uuidText, nameModel, nameTrans, maxLength)
    requires ImageReadable(store, fs, parse(uuidText).value, faults)
    requires nameModel !in reg.directors
    ensures Get(cfg, parse, pres, env, reg, fs, store, uuidText, nameModel, nameTrans, maxLength, faults).response
            == PresentError(pres, UnknownModelMsg(nameModel), 500)
  {
  }
}

module ImgHandler {
  import opened Runtime
  import opened Files
  import opened Uuids
  import opened Records
  import opened Dto
  import opened Viewers
  import opened UploadImg

  /** The file system and table afterwards, and the envelope returned. */
  datatype UploadHandled = UploadHandled(fs: FileSystem, store: Store, response: Response)

  /** `upload(img)`: never raises; every call returns one envelope. */
  function Upload(
    pres: Viewer, hash: Bytes -> int, imgDir: string, fs: FileSystem, store: Store,
    img: Bytes, writeFault: Option<IoFailure>, minted: Uuid, commitFails: bool
  ): (r: UploadHandled)
    ensures r.response.code == 200 || r.response.code == 500
    ensures var u := Execute(hash, imgDir, fs, store, img, writeFault, minted, commitFails);
            && r.fs == u.fs && r.store == u.store
            && (u.result.Err? ==> r.response == PresentError(pres, u.result.error.msg, 500))
            && (u.result.Ok? ==> r.response == Present(pres, UuidText(u.result.value)))
  {
    var u := Execute(hash, imgDir, fs, store, img, writeFault, minted, commitFails);
    match u.result
    case Err(e) => UploadHandled(u.fs, u.store, PresentError(pres, e.msg, 500))
    case Ok(id) => UploadHandled(u.fs, u.store, Present(pres, UuidText(id)))
  }
}

=== FILE: presenters.dfy ===
/**
 * The response envelopes (`src/interface_adapters/presenters/dto.py`) and
 * the two viewers that build them (`descript_viewer.py`, `img_viewer.py`).
 * Every envelope carries a fixed message and a code; a success carries the
 * payload, an error carries the error text.
 */
module Dto {

  /** `GetDescriptResponse`, `UploadImgResponse` and `ErrorResponse`, all
      extending `Response(msg, code)`. */
  datatype Response =
    | GetDescriptResponse(msg: string, code: int, desc: string)
    | UploadImgResponse(msg: string, code: int, uuid: string)
    | ErrorResponse(msg: string, code: int, error: string)
}

module DescriptViewer {
  import opened Dto

  const SuccessMsg: string := "Получение описания изображения прошло успешно!"
  const ErrorMsg: string := "Ошибка, при получении описания изображения!"

  /** `GetDescriptViewer.present(desc)`. */
  function Present(desc: string): (r: Response)
    ensures r.GetDescriptResponse? && r.code == 200 && r.desc == desc
    ensures r.msg == SuccessMsg
  {
    GetDescriptResponse(SuccessMsg, 200, desc)
  }

  /** `GetDescriptViewer.present_error(error, code)`. */
  function PresentError(error: string, code: int): (r: Response)
    ensures r.ErrorResponse? && r.code == code && r.error == error
    ensures r.msg == ErrorMsg
  {
    ErrorResponse(ErrorMsg, code, error)
  }

  /** The message tells success from failure and says nothing about the payload. */
  lemma MessagesFixedAndDistinct(d1: string, d2: string, e: string, c: int)
    ensures Present(d1).msg == Present(d2).msg
    ensures Present(d1).msg != PresentError(e, c).msg
  {
  }
}

module ImgViewer {
  import opened Dto

  const SuccessMsg: string := "Загрузка изображения прошла успешно!"
  const ErrorMsg: string := "Ошибка, при загрузке изображения!"

  /** `UploadImgViewer.present(uuid)`. */
  function Present(uuid: string): (r: Response)
    ensures r.UploadImgResponse? && r.code == 200 && r.uuid == uuid
    ensures r.msg == SuccessMsg
  {
    UploadImgResponse(SuccessMsg, 200, uuid)
  }

  /** `UploadImgViewer.present_error(error, code)`. */
  function PresentError(error: string, code: int): (r: Response)
    ensures r.ErrorResponse? && r.code == code && r.error == error
    ensures r.msg == ErrorMsg
  {
    ErrorResponse(ErrorMsg, code, error)
  }

  /** The message tells success from failure and says nothing about the payload. */
  lemma MessagesFixedAndDistinct(u1: string, u2: string, e: string, c: int)
    ensures Present(u1).msg == Present(u2).msg
    ensures Present(u1).msg != PresentError(e, c).msg
  {
  }
}

/** `AbstractViewer`: a handler is given one of the two viewers. */
module Viewers {
  import opened Dto
  import DescriptViewer
  import ImgViewer

  datatype Viewer = GetDescriptViewer | UploadImgViewer

  function Present(v: Viewer, payload: string): (r: Response)
    ensures r.code == 200 && !r.ErrorResponse?
  {
    match v
    case GetDescriptViewer => DescriptViewer.Present(payload)
    case UploadImgViewer => ImgViewer.Present(payload)
  }

  function PresentError(v: Viewer, error: string, code: int): (r: Response)
    ensures r.ErrorResponse? && r.code == code && r.error == error
  {
    match v
    case GetDescriptViewer => DescriptViewer.PresentError(error, code)
    case UploadImgViewer => ImgViewer.PresentError(error, code)
  }
}

=== FILE: repositories.dfy ===
/**
 * The `requests` table (`src/infrastructure/db/orm/request.py`) seen as a
 * map from identifier to record, and the two repositories over it:
 * `ImageRepository` (`img_repos.py`) and `DescriptionRepository`
 * (`desc_repos.py`). Whether the session raises during a call is an input;
 * the record keyed by an identifier is unique because the identifier is the
 * table's primary key.
 */
module Records {
  import opened Runtime
  import opened Uuids

  /** One row: the stored image path and the description, if any. */
  datatype Record = Record(path: string, description: Option<string>)

  type Store = map<Uuid, Record>

  /** A database session handle. */
  datatype Session = Session(handle: nat)

  /** What `set_session` can be handed: a `Session` or anything else. */
  datatype SessionArg = SessionValue(session: Session) | NotASession

  const SessionTypeMsg: string := "Сессия подключения к БД не типа Session!"
}

module ImgRepos {
  import opened Runtime
  import opened Uuids
  import opened Records

  datatype ImageRepository = ImageRepository(session: Session)

  function LookupFailedMsg(id: Uuid): string {
    "Ошибка при получении пути к изображению из БД по UUID запроса: " + UuidText(id) + "!"
  }

  function NoRecordMsg(id: Uuid): string {
    "Нет записи в БД о запросе с UUID: " + UuidText(id) + "!"
  }

  function InsertFailedMsg(id: Uuid): string {
    "Ошибка при записи пути к изображению в БД по UUID запроса: " + UuidText(id) + "!"
  }

  /** `set_session`: anything but a `Session` raises `TypeError`. */
  function SetSession(repo: ImageRepository, arg: SessionArg): (r: Result<ImageRepository>)
    ensures r.Ok? <==> arg.SessionValue?
    ensures r.Ok? ==> r.value.session == arg.session
    ensures r.Err? ==> r.error == Exc(TypeError, SessionTypeMsg)
  {
    match arg
    case SessionValue(s) => Ok(repo.(session := s))
    case NotASession => Err(Exc(TypeError, SessionTypeMsg))
  }

  /** The last session handed over is the one kept; a refused argument
      leaves the earlier one in place. */
  lemma SessionLastWins(repo: ImageRepository, a: SessionArg, b: SessionArg)
    requires SetSession(repo, a).Ok?
    ensures SetSession(SetSession(repo, a).value, b).Ok? ==> SetSession(SetSession(repo, a).value, b) == SetSession(repo, b)
    ensures SetSession(SetSession(repo, a).value, b).Err? ==> SetSession(repo, a).value.session == a.session
  {
  }

  /** `get_path_by_uuid`: the stored path of the identifier's record; a
      session failure or a missing record raises `SQLAlchemyError`. */
  function GetPathByUuid(store: Store, id: Uuid, sessionFails: bool): (r: Result<string>)
    ensures r.Ok? <==> !sessionFails && id in store
    ensures r.Ok? ==> r.value == store[id].path
    ensures sessionFails ==> r == Err(Exc(SQLAlchemyError, LookupFailedMsg(id)))
    ensures !sessionFails && id !in store ==> r == Err(Exc(SQLAlchemyError, NoRecordMsg(id)))
  {
    if sessionFails then Err(Exc(SQLAlchemyError, LookupFailedMsg(id)))
    else if id !in store then Err(Exc(SQLAlchemyError, NoRecordMsg(id)))
    else Ok(store[id].path)
  }

  /** `set_path_with_uuid`: adds `{uuid, path, description = None}`. An add
      or commit failure raises `SQLAlchemyError`; so does a second row with
      the same primary key, which the commit rejects. */
  function SetPathWithUuid(store: Store, id: Uuid, path: string, commitFails: bool): (r: Result<Store>)
    ensures r.Ok? <==> !commitFails && id !in store
    ensures r.Err? ==> r.error == Exc(SQLAlchemyError, InsertFailedMsg(id))
    ensures r.Ok? ==> r.value.Keys == store.Keys + {id}
    ensures r.Ok? ==> r.value[id] == Record(path, None)
    ensures r.Ok? ==> forall k :: k in store ==> r.value[k] == store[k]
  {
    if commitFails || id in store then Err(Exc(SQLAlchemyError, InsertFailedMsg(id)))
    else Ok(store[id := Record(path, None)])
  }

  /** Reading back what was just inserted gives the inserted path. */
  lemma InsertThenLookup(store: Store, id: Uuid, path: string)
    requires id !in store
    ensures SetPathWithUuid(store, id, path, false).Ok?
    ensures GetPathByUuid(SetPathWithUuid(store, id, path, false).value, id, false) == Ok(path)
  {
  }
}

module DescRepos {
  import opened Runtime
  import opened Uuids
  import opened Records

  datatype DescriptionRepository = DescriptionRepository(session: Session)

  /** The source's message lacks a space between its two literal halves. */
  function UpdateFailedMsg(id: Uuid): string {
    "Ошибка при записи описания изображения в БДпо UUID запроса: " + UuidText(id) + "!"
  }

  function NoRowsMsg(id: Uuid): string {
    "Нет записи в БД о запросе с UUID: " + UuidText(id) + "!"
  }

  /** `set_session`: anything but a `Session` raises `TypeError`. */
  function SetSession(repo: DescriptionRepository, arg: SessionArg): (r: Result<DescriptionRepository>)
    ensures r.Ok? <==> arg.SessionValue?
    ensures r.Ok? ==> r.value.session == arg.session
    ensures r.Err? ==> r.error == Exc(TypeError, SessionTypeMsg)
  {
    match arg
    case SessionValue(s) => Ok(repo.(session := s))
    case NotASession => Err(Exc(TypeError, SessionTypeMsg))
  }

  /** The last session handed over is the one kept; a refused argument
      leaves the earlier one in place. */
  lemma SessionLastWins(repo: DescriptionRepository, a: SessionArg, b: SessionArg)
    requires SetSession(repo, a).Ok?
    ensures SetSession(SetSession(repo, a).value, b).Ok? ==> SetSession(SetSession(repo, a).value, b) == SetSession(repo, b)
    ensures SetSession(SetSession(repo, a).value, b).Err? ==> SetSession(repo, a).value.session == a.session
  {
  }

  /** `set_description_by_uuid`: an UPDATE of the one row keyed by `id`. An
      execute or commit failure raises `SQLAlchemyError`; so does an update
      that touched no row. Only that row's description changes. */
  function SetDescriptionByUuid(store: Store, id: Uuid, desc: string, commitFails: bool): (r: Result<Store>)
    ensures r.Ok? <==> !commitFails && id in store
    ensures commitFails ==> r == Err(Exc(SQLAlchemyError, UpdateFailedMsg(id)))
    ensures !commitFails && id !in store ==> r == Err(Exc(SQLAlchemyError, NoRowsMsg(id)))
    ensures r.Ok? ==> r.value.Keys == store.Keys
    ensures r.Ok? ==> r.value[id] == Record(store[id].path, Some(desc))
    ensures r.Ok? ==> forall k :: k in store && k != id ==> r.value[k] == store[k]
  {
    if commitFails then Err(Exc(SQLAlchemyError, UpdateFailedMsg(id)))
    else if id !in store then Err(Exc(SQLAlchemyError, NoRowsMsg(id)))
    else Ok(store[id := store[id].(description := Some(desc))])
  }

  /** Two successive writes leave the second: the last write wins. */
  lemma LastWriteWins(store: Store, id: Uuid, d1: string, d2: string)
    requires id in store
    ensures SetDescriptionByUuid(store, id, d1, false).Ok?
    ensures SetDescriptionByUuid(SetDescriptionByUuid(store, id, d1, false).value, id, d2, false)
            == SetDescriptionByUuid(store, id, d2, false)
  {
    var s1 := SetDescriptionByUuid(store, id, d1, false).value;
    var s2 := SetDescriptionByUuid(s1, id, d2, false).value;
    var s2' := SetDescriptionByUuid(store, id, d2, false).value;
    assert s1[id].path == store[id].path;
    assert s2.Keys == s2'.Keys;
    assert forall k :: k in s2 ==> s2[k] == s2'[k];
    assert s2 == s2';
  }
}

=== FILE: runtime.dfy ===
/**
 * The few Python runtime notions the request pipeline relies on: optional
 * values, raised exceptions, results that either carry a value or the
 * exception that was raised, and the dynamically typed arguments that the
 * setters check with `isinstance`.
 */
module Runtime {

  /** `None` or a value, as Python's `X | None`. */
  datatype Option<+T> = None | Some(value: T)

  /** The exception classes the pipeline raises or lets through. `Exception`
      is a plain `Exception(...)`; `SQLAlchemyError` is the storage error. */
  datatype Kind =
    | TypeError
    | ValueError
    | PermissionError
    | OSError
    | Exception
    | SQLAlchemyError

  /** A raised exception: its class and the text `str(e)` gives. */
  datatype Exc = Exc(kind: Kind, msg: string)

  /** A call either returns a value or raises. */
  datatype Result<+T> = Ok(value: T) | Err(error: Exc) {

    predicate IsFailure() {
      Err?
    }

    function PropagateFailure<U>(): Result<U>
      requires Err?
    {
      Err(error)
    }

    function Extract(): T
      requires Ok?
    {
      value
    }
  }

  /** An argument whose Python type is only known at run time. `PyBool` is
      kept apart from `PyInt` because `bool` is a subclass of `int`. */
  datatype PyValue =
    | PyInt(i: int)
    | PyBool(b: bool)
    | PyStr(s: string)
    | PyNone
    | PyOther

  /** `isinstance(v, int)`, with the integer the value stands for. */
  function AsInt(v: PyValue): (r: Option<int>)
    ensures r.Some? <==> (v.PyInt? || v.PyBool?)
    ensures v.PyInt? ==> r == Some(v.i)
    ensures v.PyBool? ==> r == Some(if v.b then 1 else 0)
  {
    match v
    case PyInt(i) => Some(i)
    case PyBool(b) => Some(if b then 1 else 0)
    case _ => None
  }
}

=== FILE: service.dfy ===
/**
 * The pipeline as one process sees it: requests handled strictly one after
 * another against shared state, namely the process-wide directors and
 * translators, the image directory and the `requests` table. This is where
 * the effect of the shared singletons shows: a builder length or a
 * translator choice made by one request is still there for the next.
 */
module Service {
  import opened Runtime
  import opened Files
  import opened Uuids
  import opened Records
  import opened Blip
  import opened Dto
  import opened Viewers
  import opened GetDescript
  import opened DescriptHandler
  import ImgHandler
  import UploadImg

  /** What is fixed for the life of the process: the configuration, text to
      identifier parsing, the per-process bytes hash and the image directory. */
  datatype Process = Process(cfg: Config, parse: string -> Option<Uuid>, hash: Bytes -> int, imgDir: string)

  datatype Server = Server(registry: Registry, fs: FileSystem, store: Store)

  /** One request together with how its external steps turn out. */
  datatype Request =
    | UploadRequest(img: Bytes, writeFault: Option<IoFailure>, minted: Uuid, commitFails: bool)
    | DescribeRequest(
        uuidText: string, nameModel: string, nameTrans: Option<string>, maxLength: Option<int>,
        env: Env, faults: DescribeFaults)

  datatype Served = Served(server: Server, response: Response)

  datatype Ran = Ran(server: Server, responses: seq<Response>)

  /** One request through its handler, each handler wired with its own viewer. */
  function Serve(p: Process, s: Server, req: Request): (r: Served)
    ensures r.response.code == 200 || r.response.code == 400 || r.response.code == 500
    // Only a successful request changes the table.
    ensures r.response.code != 200 ==> r.server.store == s.store
    // An upload is never refused, never touches the registry, and succeeds
    // exactly when the use case does.
    ensures req.UploadRequest? ==> r.response.code != 400 && r.server.registry == s.registry
    ensures req.UploadRequest? ==>
              (r.response.code == 200 <==>
                 UploadImg.Execute(p.hash, p.imgDir, s.fs, s.store, req.img, req.writeFault, req.minted, req.commitFails).result.Ok?)
    // A description request never writes files and is refused exactly when
    // the handler's checks fail.
    ensures req.DescribeRequest? ==> r.server.fs == s.fs
    ensures req.DescribeRequest? ==>
              (r.response.code == 400 <==>
                 !Admissible(p.cfg, p.parse, req.uuidText, req.nameModel, req.nameTrans, req.maxLength))
  {
    match req
    case UploadRequest(img, writeFault, minted, commitFails) =>
      var h := ImgHandler.Upload(UploadImgViewer, p.hash, p.imgDir, s.fs, s.store, img, writeFault, minted, commitFails);
      Served(Server(s.registry, h.fs, h.store), h.response)
    case DescribeRequest(uuidText, nameModel, nameTrans, maxLength, env, faults) =>
      var h := Get(p.cfg, p.parse, GetDescriptViewer, env, s.registry, s.fs, s.store,
                   uuidText, nameModel, nameTrans, maxLength, faults);
      Served(Server(h.registry, s.fs, h.store), h.response)
  }

  /** An upload request is answered by the upload handler with the upload
      viewer, and the process keeps the file system and table it leaves. */
  lemma ServeUploadIsHandler(p: Process, s: Server, img: Bytes, writeFault: Option<IoFailure>, minted: Uuid, commitFails: bool)
    ensures var h := ImgHandler.Upload(UploadImgViewer, p.hash, p.imgDir, s.fs, s.store, img, writeFault, minted, commitFails);
            Serve(p, s, UploadRequest(img, writeFault, minted, commitFails)) == Served(Server(s.registry, h.fs, h.store), h.response)
  {
  }

  /** A description request is answered by the description handler with the
      description viewer, and the process keeps the registry and table it
      leaves. */
  lemma ServeDescribeIsHandler(
    p: Process, s: Server, uuidText: string, nameModel: string, nameTrans: Option<string>,
    maxLength: Option<int>, env: Env, faults: DescribeFaults
  )
    ensures var h := Get(p.cfg, p.parse, GetDescriptViewer, env, s.registry, s.fs, s.store,
                         uuidText, nameModel, nameTrans, maxLength, faults);
            Serve(p, s, DescribeRequest(uuidText, nameModel, nameTrans, maxLength, env, faults))
            == Served(Server(h.registry, s.fs, h.store), h.response)
  {
  }

  /** A sequence of requests, handled in order: one envelope per request,
      each with one of the three codes. */
  function Run(p: Process, s: Server, reqs: seq<Request>): (r: Ran)
    ensures |r.responses| == |reqs|
    ensures forall i :: 0 <= i < |reqs| ==>
              r.responses[i].code == 200 || r.responses[i].code == 400 || r.responses[i].code == 500
    decreases |reqs|
  {
    if |reqs| == 0 then Ran(s, [])
    else
      var first := Serve(p, s, reqs[0]);
      var rest := Run(p, first.server, reqs[1..]);
      Ran(rest.server, [first.response] + rest.responses)
  }

  /** Running two batches one after the other is running them as one: the
      second starts in the state the first left, and the answers line up. */
  lemma {:induction false} RunSplit(p: Process, s: Server, a: seq<Request>, b: seq<Request>)
    ensures var ra := Run(p, s, a);
            var rb := Run(p, ra.server, b);
            Run(p, s, a + b) == Ran(rb.server, ra.responses + rb.responses)
    decreases |a|
  {
    if |a| > 0 {
      assert (a + b)[0] == a[0];
      assert (a + b)[1..] == a[1..] + b;
      var first := Serve(p, s, a[0]);
      RunSplit(p, first.server, a[1..], b);
      var ra' := Run(p, first.server, a[1..]);
      var rb := Run(p, ra'.server, b);
      assert [first.response] + (ra'.responses + rb.responses) == ([first.response] + ra'.responses) + rb.responses;
    } else {
      assert a + b == b;
    }
  }

  /** A one-request run is that request served in the starting state, and the
      run passes on the state it leaves. */
  lemma RunOne(p: Process, s: Server, req: Request)
    ensures Run(p, s, [req]) == Ran(Serve(p, s, req).server, [Serve(p, s, req).response])
  {
    assert [req][1..] == [];
  }

  /** The i-th answer of a run is what the i-th request gets when served in
      the state the requests before it left. */
  lemma RunAnswersInOrder(p: Process, s: Server, reqs: seq<Request>, i: int)
    requires 0 <= i < |reqs|
    ensures Run(p, s, reqs).responses[i] == Serve(p, Run(p, s, reqs[..i]).server, reqs[i]).response
  {
    assert reqs == reqs[..i] + reqs[i..];
    RunSplit(p, s, reqs[..i], reqs[i..]);
    var ri := Run(p, s, reqs[..i]);
    assert |ri.responses| == i;
    assert reqs[i..][0] == reqs[i];
  }

  /** Every record's image file exists. */
  predicate RecordsOnDisk(s: Server) {
    forall id :: id in s.store ==> s.store[id].path in s.fs
  }

  /** Nothing is ever deleted: records keep their identifier and path, and
      files stay on disk. */
  predicate Grows(s: Server, s': Server) {
    && s.fs.Keys <= s'.fs.Keys
    && (forall id :: id in s.store ==> id in s'.store && s'.store[id].path == s.store[id].path)
  }

  lemma ServeGrows(p: Process, s: Server, req: Request)
    ensures Grows(s, Serve(p, s, req).server)
    ensures RecordsOnDisk(s) ==> RecordsOnDisk(Serve(p, s, req).server)
  {
    match req
    case UploadRequest(img, writeFault, minted, commitFails) =>
      var u := UploadImg.Execute(p.hash, p.imgDir, s.fs, s.store, img, writeFault, minted, commitFails);
      assert Serve(p, s, req).server == Server(s.registry, u.fs, u.store);
    case DescribeRequest(uuidText, nameModel, nameTrans, maxLength, env, faults) =>
      if Admissible(p.cfg, p.parse, uuidText, nameModel, nameTrans, maxLength) {
        var id := p.parse(uuidText).value;
        ExecuteFrame(env, s.registry, s.fs, s.store, id, nameModel, nameTrans, maxLength, faults);
        var o := Execute(env, s.registry, s.fs, s.store, id, nameModel, nameTrans, maxLength, faults);
        if o.result.Ok? {
          var path := s.store[id].path;
          assert o == Describe(env, s.registry, s.store, id, s.fs[path], nameModel, nameTrans, maxLength, faults.commitFails);
        }
      }
  }

  /** Across any run, nothing is deleted and every record's file stays on disk. */
  lemma {:induction false} RunGrows(p: Process, s: Server, reqs: seq<Request>)
    ensures Grows(s, Run(p, s, reqs).server)
    ensures RecordsOnDisk(s) ==> RecordsOnDisk(Run(p, s, reqs).server)
    decreases |reqs|
  {
    if |reqs| > 0 {
      var first := Serve(p, s, reqs[0]);
      ServeGrows(p, s, reqs[0]);
      RunGrows(p, first.server, reqs[1..]);
    }
  }

  /** The identifiers minted by the upload requests of a run. */
  function Minted(reqs: seq<Request>): set<Uuid>
    decreases |reqs|
  {
    if |reqs| == 0 then {}
    else (if reqs[0].UploadRequest? then {reqs[0].minted} else {}) + Minted(reqs[1..])
  }

  /** Only uploads create records: every identifier in the table afterwards
      was there before or was minted by an upload of the run. */
  lemma {:induction false} RecordsComeFromUploads(p: Process, s: Server, reqs: seq<Request>)
    ensures Run(p, s, reqs).server.store.Keys <= s.store.Keys + Minted(reqs)
    decreases |reqs|
  {
    if |reqs| > 0 {
      var first := Serve(p, s, reqs[0]);
      RecordsComeFromUploads(p, first.server, reqs[1..]);
      match reqs[0]
      case UploadRequest(img, writeFault, minted, commitFails) =>
        assert first.server.store.Keys <= s.store.Keys + {minted};
      case DescribeRequest(uuidText, nameModel, nameTrans, maxLength, env, faults) =>
        if Admissible(p.cfg, p.parse, uuidText, nameModel, nameTrans, maxLength) {
          var id := p.parse(uuidText).value;
          ExecuteFrame(env, s.registry, s.fs, s.store, id, nameModel, nameTrans, maxLength, faults);
          var o := Execute(env, s.registry, s.fs, s.store, id, nameModel, nameTrans, maxLength, faults);
          if o.result.Ok? {
            var path := s.store[id].path;
            assert o == Describe(env, s.registry, s.store, id, s.fs[path], nameModel, nameTrans, maxLength, faults.commitFails);
          }
        }
        assert first.server.store.Keys == s.store.Keys;
    }
  }

  /** No describe request in the sequence names a length. */
  predicate NoLengthGiven(reqs: seq<Request>) {
    forall i :: 0 <= i < |reqs| && reqs[i].DescribeRequest? ==> reqs[i].maxLength.None?
  }

  /** Builder lengths are shared state: when no request names a length, every
      director's builder keeps the length it had before the run. */
  lemma {:induction false} LengthPersistsWithoutRequests(p: Process, s: Server, reqs: seq<Request>)
    requires NoLengthGiven(reqs)
    ensures Run(p, s, reqs).server.registry.directors.Keys == s.registry.directors.Keys
    ensures forall n :: n in s.registry.directors ==>
              Run(p, s, reqs).server.registry.directors[n].builder == s.registry.directors[n].builder
    decreases |reqs|
  {
    if |reqs| > 0 {
      var first := Serve(p, s, reqs[0]);
      assert NoLengthGiven(reqs[1..]) by {
        forall i | 0 <= i < |reqs[1..]| && reqs[1..][i].DescribeRequest?
          ensures reqs[1..][i].maxLength.None?
        {
          assert reqs[1..][i] == reqs[i + 1];
        }
      }
      LengthPersistsWithoutRequests(p, first.server, reqs[1..]);
      match reqs[0]
      case UploadRequest(_, _, _, _) =>
      case DescribeRequest(uuidText, nameModel, nameTrans, maxLength, env, faults) =>
        assert maxLength.None?;
        if Admissible(p.cfg, p.parse, uuidText, nameModel, nameTrans, maxLength) {
          var id := p.parse(uuidText).value;
          ExecuteFrame(env, s.registry, s.fs, s.store, id, nameModel, nameTrans, maxLength, faults);
        }
    }
  }

  /** The shared builder across requests: a length accepted for one
      description request is still the builder's length after a later
      request that gives none. */
  lemma LengthCarriesOverRequests(p: Process, s: Server, r1: Request, r2: Request, n: int)
    requires r1.DescribeRequest? && r2.DescribeRequest?
    requires r1.maxLength == Some(n) && n >= 1 && r2.maxLength.None?
    requires Admissible(p.cfg, p.parse, r1.uuidText, r1.nameModel, r1.nameTrans, r1.maxLength)
    requires ImageReadable(s.store, s.fs, p.parse(r1.uuidText).value, r1.faults)
    requires Dispatchable(s.registry, r1.nameModel, r1.nameTrans)
    ensures r1.nameModel in Run(p, s, [r1, r2]).server.registry.directors
    ensures Run(p, s, [r1, r2]).server.registry.directors[r1.nameModel].builder.maxLength == n
  {
    var id := p.parse(r1.uuidText).value;
    var path := s.store[id].path;
    var o := Execute(r1.env, s.registry, s.fs, s.store, id, r1.nameModel, r1.nameTrans, r1.maxLength, r1.faults);
    assert o == Describe(r1.env, s.registry, s.store, id, s.fs[path], r1.nameModel, r1.nameTrans, r1.maxLength, r1.faults.commitFails);
    var first := Serve(p, s, r1);
    assert first.server.registry == o.registry;
    assert first.server.registry.directors[r1.nameModel].builder.maxLength == n;
    assert NoLengthGiven([r2]);
    LengthPersistsWithoutRequests(p, first.server, [r2]);
    assert [r1, r2][1..] == [r2];
  }

  /** End to end: upload an image, then ask for its description with the
      identifier text the upload returned, the configured and mapped model,
      no translator and no length. The answer is a 200 exactly when the
      freshly built model captions the uploaded bytes, and it then carries
      that caption; otherwise it is a 500. */
  lemma UploadThenDescribe(
    p: Process, s: Server, img: Bytes, minted: Uuid, nameModel: string, env: Env
  )
    requires minted !in s.store
    requires p.parse(UuidText(minted)) == Some(minted)
    requires nameModel in p.cfg.modelNames && nameModel in s.registry.directors
    ensures var up := Serve(p, s, UploadRequest(img, None, minted, false));
            && up.response == ImgViewer.Present(UuidText(minted))
            && var req := DescribeRequest(up.response.uuid, nameModel, None, None, env, DescribeFaults(false, None, false));
               var down := Serve(p, up.server, req);
               var raw := BuildAndDescribe(env.hub, s.registry.directors[nameModel].builder, img);
               && (raw.Ok? ==> down.response == DescriptViewer.Present(raw.value))
               && (raw.Err? ==> down.response == DescriptViewer.PresentError(raw.error.msg, 500))
  {
    var up := Serve(p, s, UploadRequest(img, None, minted, false));
    var u := UploadImg.Execute(p.hash, p.imgDir, s.fs, s.store, img, None, minted, false);
    assert u.result == Ok(minted);
    var s1 := up.server;
    var path := UploadImg.ImagePath(p.imgDir, p.hash, img);
    assert s1.store[minted].path == path && s1.fs[path] == img;
    var faults := DescribeFaults(false, None, false);
    assert ImageReadable(s1.store, s1.fs, minted, faults);
    assert Admissible(p.cfg, p.parse, UuidText(minted), nameModel, None, None);
    var o := Execute(env, s1.registry, s1.fs, s1.store, minted, nameModel, None, None, faults);
    assert o == Describe(env, s1.registry, s1.store, minted, img, nameModel, None, None, false);
  }
}

=== FILE: text.dfy ===
/**
 * Python's `str(n)` for integers: an optional minus sign followed by the
 * decimal digits without leading zeros. The upload use case names a stored
 * image after `str(hash(img))`, and the length-bound error message renders
 * the configured bounds the same way.
 */
module Text {

  predicate IsDigit(c: char) {
    '0' <= c <= '9'
  }

  function DigitChar(d: nat): (c: char)
    requires d < 10
    ensures IsDigit(c)
  {
    "0123456789"[d]
  }

  function DigitValue(c: char): nat
    requires IsDigit(c)
  {
    c as nat - '0' as nat
  }

  /** The decimal digits of a natural number, most significant first. */
  function NatText(n: nat): (s: string)
    ensures |s| >= 1
    ensures forall i :: 0 <= i < |s| ==> IsDigit(s[i])
    decreases n
  {
    if n < 10 then [DigitChar(n)] else NatText(n / 10) + [DigitChar(n % 10)]
  }

  /** `str(n)` for a Python `int`. */
  function DecimalText(n: int): (s: string)
    ensures |s| >= 1
    ensures (n < 0) <==> s[0] == '-'
  {
    if n < 0 then "-" + NatText(-n) else NatText(n)
  }

  /** The value of a string of decimal digits, read most significant first:
      the reference reading that `NatText` must agree with. */
  function DigitsValue(s: string): nat
    requires forall i :: 0 <= i < |s| ==> IsDigit(s[i])
  {
    if |s| == 0 then 0 else 10 * DigitsValue(s[..|s| - 1]) + DigitValue(s[|s| - 1])
  }

  /** Reads back what `DecimalText` wrote (only defined on its outputs). */
  function DecimalValue(s: string): int
    requires |s| >= 1
    requires s[0] == '-' ==> forall i :: 1 <= i < |s| ==> IsDigit(s[i])
    requires s[0] != '-' ==> forall i :: 0 <= i < |s| ==> IsDigit(s[i])
  {
    var v: int := if s[0] == '-' then DigitsValue(s[1..]) else DigitsValue(s);
    if s[0] == '-' then -v else v
  }

  lemma {:induction false} NatTextRoundTrip(n: nat)
    ensures DigitsValue(NatText(n)) == n
    decreases n
  {
    if n < 10 {
      assert DigitValue(DigitChar(n)) == n;
    } else {
      var s := NatText(n / 10);
      var c := DigitChar(n % 10);
      assert NatText(n) == s + [c];
      assert (s + [c])[..|s + [c]| - 1] == s;
      assert DigitValue(c) == n % 10;
      NatTextRoundTrip(n / 10);
    }
  }

  /** `str` on integers is injective: reading the text back gives the number. */
  lemma {:induction false} DecimalTextRoundTrip(n: int)
    ensures DecimalValue(DecimalText(n)) == n
  {
    var s := DecimalText(n);
    if n < 0 {
      var t := NatText(-n);
      assert s == "-" + t;
      assert s[1..] == t;
      NatTextRoundTrip(-n);
      assert DigitsValue(s[1..]) == -n;
    } else {
      assert s == NatText(n);
      assert s[0] != '-';
      NatTextRoundTrip(n);
    }
  }

  lemma DecimalTextInjective(a: int, b: int)
    ensures DecimalText(a) == DecimalText(b) <==> a == b
  {
    DecimalTextRoundTrip(a);
    DecimalTextRoundTrip(b);
  }
}

=== FILE: translators.dfy ===
/**
 * The two translation strategies: `GoogleTranslator`
 * (`src/entities/translators/google.py`), whose target language can be
 * switched among a supported set, and `AppTranslator`
 * (`src/entities/translators/translator.py`), whose language is fixed in
 * the wrapped back end. The back ends themselves are external: `Backends`
 * says what each returns for a given call.
 */
module Translators {
  import opened Runtime

  /** An opaque back-end object (a `googletrans.Translator`, or a
      `translate.Translator` already bound to its language). */
  datatype Backend = Backend(name: string)

  /** What googletrans returns; the strategy keeps only `.text`. */
  datatype GoogleResult = GoogleResult(text: string, src: string)

  /** `google(backend, text, dest)` is `backend.translate(text=text, dest=dest)`
      run to completion; `app(backend, text)` is `backend.translate(text=text)`. */
  datatype Backends = Backends(
    google: (Backend, string, string) -> Result<GoogleResult>,
    app: (Backend, string) -> Result<string>
  )

  /** `GoogleTranslator`: back end, current target language, and the
      languages `set_lang` accepts. */
  datatype GoogleTranslator = GoogleTranslator(backend: Backend, toLang: string, langs: set<string>)

  /** `AppTranslator`: back end and a stored language list. */
  datatype AppTranslator = AppTranslator(backend: Backend, langs: seq<string>)

  /** `AbstractTranslator`: either strategy. */
  datatype Translator = Google(google: GoogleTranslator) | App(app: AppTranslator)

  const LangTypeMsg: string := "Язык должен быть строкой!"
  const FixedLangMsg: string := "Переводчик не поддерживает смену языка!"
  const TranslateFailPrefix: string := "Ошибка при переводе описания изображения: "

  function UnsupportedLangMsg(lang: string): string {
    "Язык " + lang + " не поддерживается Google-переводчиком!"
  }

  /** The single error both strategies raise for any back-end failure. */
  function TranslateFailure(cause: Exc): Exc {
    Exc(Exception, TranslateFailPrefix + cause.msg + "!")
  }

  /** The `GoogleTranslator` constructor: the target language is stored as
      given, without consulting the supported set. */
  function NewGoogle(backend: Backend, toLang: string, langs: set<string>): Translator {
    Google(GoogleTranslator(backend, toLang, langs))
  }

  /** The `AppTranslator` constructor. */
  function NewApp(backend: Backend, langs: seq<string>): Translator {
    App(AppTranslator(backend, langs))
  }

  /** `GoogleTranslator.set_lang`: a non-string raises `TypeError`, an
      unsupported language `ValueError`, and a supported one becomes the
      target; nothing else changes. */
  function GoogleSetLang(t: GoogleTranslator, v: PyValue): (r: Result<GoogleTranslator>)
    ensures r.Ok? <==> v.PyStr? && v.s in t.langs
    ensures !v.PyStr? ==> r == Err(Exc(TypeError, LangTypeMsg))
    ensures v.PyStr? && v.s !in t.langs ==> r == Err(Exc(ValueError, UnsupportedLangMsg(v.s)))
    ensures r.Ok? ==> r.value.toLang == v.s && r.value.(toLang := t.toLang) == t
  {
    if !v.PyStr? then Err(Exc(TypeError, LangTypeMsg))
    else if v.s !in t.langs then Err(Exc(ValueError, UnsupportedLangMsg(v.s)))
    else Ok(t.(toLang := v.s))
  }

  /** `AppTranslator.set_lang`: always raises, whatever the argument. */
  function AppSetLang(t: AppTranslator, v: PyValue): (r: Result<AppTranslator>)
    ensures r == Err(Exc(Exception, FixedLangMsg))
  {
    Err(Exc(Exception, FixedLangMsg))
  }

  /** `set_lang` on either strategy. */
  function SetLang(t: Translator, v: PyValue): Result<Translator> {
    match t
    case Google(g) =>
      (match GoogleSetLang(g, v)
       case Ok(g') => Ok(Google(g'))
       case Err(e) => Err(e))
    case App(a) =>
      match AppSetLang(a, v)
      case Ok(a') => Ok(App(a'))
      case Err(e) => Err(e)
  }

  /** `GoogleTranslator.translate`: asks the back end for the current target
      language and keeps the `.text` of the answer; a back-end failure
      becomes the wrapped error carrying the cause's text. */
  function GoogleTranslate(bk: Backends, t: GoogleTranslator, desc: string): (r: Result<string>)
    ensures r.Ok? <==> bk.google(t.backend, desc, t.toLang).Ok?
    ensures r.Ok? ==> r.value == bk.google(t.backend, desc, t.toLang).value.text
    ensures r.Err? ==> r.error == TranslateFailure(bk.google(t.backend, desc, t.toLang).error)
  {
    match bk.google(t.backend, desc, t.toLang)
    case Ok(res) => Ok(res.text)
    case Err(e) => Err(TranslateFailure(e))
  }

  /** `AppTranslator.translate`: the back end's answer unchanged; a failure
      becomes the wrapped error carrying the cause's text. */
  function AppTranslate(bk: Backends, t: AppTranslator, desc: string): (r: Result<string>)
    ensures r.Ok? <==> bk.app(t.backend, desc).Ok?
    ensures r.Ok? ==> r.value == bk.app(t.backend, desc).value
    ensures r.Err? ==> r.error == TranslateFailure(bk.app(t.backend, desc).error)
  {
    match bk.app(t.backend, desc)
    case Ok(s) => Ok(s)
    case Err(e) => Err(TranslateFailure(e))
  }

  /** `translate` on either strategy. */
  function Translate(bk: Backends, t: Translator, desc: string): Result<string> {
    match t
    case Google(g) => GoogleTranslate(bk, g, desc)
    case App(a) => AppTranslate(bk, a, desc)
  }

  /** The wrapped error keeps its cause: the cause's text can be read back
      out of the message. */
  lemma TranslateFailureKeepsCause(cause: Exc)
    ensures TranslateFailure(cause).kind == Exception
    ensures var m := TranslateFailure(cause).msg;
            |m| == |TranslateFailPrefix| + |cause.msg| + 1
            && m[|TranslateFailPrefix|..|m| - 1] == cause.msg
  {
    var m := TranslateFailure(cause).msg;
    assert m == TranslateFailPrefix + cause.msg + "!";
    assert m[|TranslateFailPrefix|..|m| - 1] == cause.msg;
  }

  /** The constructor accepts a language that `set_lang` would refuse, and
      translation then targets that language. */
  lemma GoogleConstructorUnchecked(bk: Backends, backend: Backend, lang: string, langs: set<string>, desc: string)
    requires lang !in langs
    ensures NewGoogle(backend, lang, langs).google.toLang == lang
    ensures SetLang(NewGoogle(backend, lang, langs), PyStr(lang)) == Err(Exc(ValueError, UnsupportedLangMsg(lang)))
    ensures Translate(bk, NewGoogle(backend, lang, langs), desc).Ok? <==> bk.google(backend, desc, lang).Ok?
  {
  }

  /** Switching to a supported language and translating asks the back end
      for exactly that language. */
  lemma SetLangThenTranslate(bk: Backends, t: GoogleTranslator, lang: string, desc: string)
    requires lang in t.langs
    ensures SetLang(Google(t), PyStr(lang)).Ok?
    ensures Translate(bk, SetLang(Google(t), PyStr(lang)).value, desc).Ok? <==> bk.google(t.backend, desc, lang).Ok?
    ensures Translate(bk, SetLang(Google(t), PyStr(lang)).value, desc).Ok? ==>
              Translate(bk, SetLang(Google(t), PyStr(lang)).value, desc).value == bk.google(t.backend, desc, lang).value.text
  {
  }

  /** The fixed-language strategy never consults its stored language list:
      two instances that differ only in that list behave identically. */
  lemma AppIgnoresSupportLangs(bk: Backends, backend: Backend, l1: seq<string>, l2: seq<string>, v: PyValue, desc: string)
    ensures SetLang(NewApp(backend, l1), v) == SetLang(NewApp(backend, l2), v) == Err(Exc(Exception, FixedLangMsg))
    ensures Translate(bk, NewApp(backend, l1), desc) == Translate(bk, NewApp(backend, l2), desc)
  {
  }
}

=== FILE: upload_img.dfy ===
/**
 * The `UploadImg` use case (`src/use_cases/upload_img.py`): write the image
 * bytes into the image directory under a name derived from their hash,
 * mint an identifier and record identifier -> path with no description.
 * The hash (`hash(bytes)`, salted per process), the minted identifier
 * (`uuid4()`), the outcome of the write and of the commit are inputs.
 */
module UploadImg {
  import opened Runtime
  import opened Files
  import opened Text
  import opened Uuids
  import opened Records
  import opened ImgRepos

  /** The file system and table afterwards, and the identifier returned or
      the exception raised. */
  datatype Uploaded = Uploaded(fs: FileSystem, store: Store, result: Result<Uuid>)

  const WritePermissionMsg: string := "Нет прав для сохранения изображения!"
  const WriteOsMsg: string := "Невозможно сохранить изображение!"
  const WriteUnknownPrefix: string := "Неизвестная ошибка при сохранении изображения: "

  /** The three `except` clauses around the write, tried in order. */
  function WriteError(f: IoFailure): (e: Exc)
    ensures e.kind == PermissionError <==> f.PermissionDenied?
    ensures e.kind == OSError <==> f.OsFailure?
    ensures e.kind == Exception <==> f.OtherFailure?
    ensures f.OtherFailure? ==> e.msg == WriteUnknownPrefix + f.cause + "!"
  {
    match f
    case PermissionDenied => Exc(PermissionError, WritePermissionMsg)
    case OsFailure => Exc(OSError, WriteOsMsg)
    case OtherFailure(cause) => Exc(Exception, WriteUnknownPrefix + cause + "!")
  }

  /** `PATH_TO_IMG_DIR.joinpath(str(hash(img)))`. */
  function ImagePath(imgDir: string, hash: Bytes -> int, img: Bytes): string {
    JoinPath(imgDir, DecimalText(hash(img)))
  }

  /** `execute(img)`. */
  function Execute(
    hash: Bytes -> int, imgDir: string, fs: FileSystem, store: Store,
    img: Bytes, writeFault: Option<IoFailure>, minted: Uuid, commitFails: bool
  ): (r: Uploaded)
    // A failed write is classified and nothing is recorded.
    ensures writeFault.Some? ==> r == Uploaded(fs, store, Err(WriteError(writeFault.value)))
    // Success exactly when the write and the insert both go through.
    ensures r.result.Ok? <==> writeFault.None? && !commitFails && minted !in store
    // After the write, the file holds the bytes whatever the insert does.
    ensures writeFault.None? ==> r.fs == fs[ImagePath(imgDir, hash, img) := img]
    ensures r.result.Err? ==> r.store == store
    // The returned identifier is the one recorded, with the written path
    // and no description; every earlier record is kept as it was.
    ensures r.result.Ok? ==> r.result.value == minted
    ensures r.result.Ok? ==> r.store.Keys == store.Keys + {minted}
    ensures r.result.Ok? ==> r.store[minted] == Record(ImagePath(imgDir, hash, img), None)
    ensures r.result.Ok? ==> forall k :: k in store ==> r.store[k] == store[k]
  {
    var path := ImagePath(imgDir, hash, img);
    if writeFault.Some? then
      Uploaded(fs, store, Err(WriteError(writeFault.value)))
    else
      var fs' := fs[path := img];
      match SetPathWithUuid(store, minted, path, commitFails)
      case Err(e) => Uploaded(fs', store, Err(e))
      case Ok(store') => Uploaded(fs', store', Ok(minted))
  }

  /** Round trip: the path recorded for the returned identifier holds
      exactly the uploaded bytes. */
  lemma UploadRoundTrip(
    hash: Bytes -> int, imgDir: string, fs: FileSystem, store: Store,
    img: Bytes, writeFault: Option<IoFailure>, minted: Uuid, commitFails: bool
  )
    ensures var r := Execute(hash, imgDir, fs, store, img, writeFault, minted, commitFails);
            r.result.Ok? ==>
              && GetPathByUuid(r.store, r.result.value, false).Ok?
              && GetPathByUuid(r.store, r.result.value, false).value in r.fs
              && r.fs[GetPathByUuid(r.store, r.result.value, false).value] == img
  {
  }

  /** The file name is a function of the bytes' hash and nothing else: two
      images share a path exactly when their hashes agree. Identical bytes
      therefore always share one file within a process. */
  lemma SamePathIffSameHash(imgDir: string, hash: Bytes -> int, a: Bytes, b: Bytes)
    ensures ImagePath(imgDir, hash, a) == ImagePath(imgDir, hash, b) <==> hash(a) == hash(b)
  {
    JoinPathInjective(imgDir, DecimalText(hash(a)), DecimalText(hash(b)));
    DecimalTextInjective(hash(a), hash(b));
  }

  /** An earlier upload's file keeps its bytes after a later upload exactly
      when the later one was written elsewhere or wrote the same bytes; two
      different images whose hashes collide overwrite each other. */
  lemma EarlierImageKept(
    hash: Bytes -> int, imgDir: string, fs: FileSystem, store: Store,
    img: Bytes, minted: Uuid, commitFails: bool, k: Uuid
  )
    requires k in store && store[k].path in fs
    ensures var r := Execute(hash, imgDir, fs, store, img, None, minted, commitFails);
            var p := store[k].path;
            p in r.fs
            && (r.fs[p] == fs[p] <==> p != ImagePath(imgDir, hash, img) || img == fs[p])
  {
  }
}

=== FILE: uuids.dfy ===
/**
 * Request identifiers: 128-bit values (section 4 of RFC 9562) and their
 * canonical text, which is what Python's `str(uuid)` produces and what the
 * upload handler hands back to the client. Parsing text into an identifier
 * (`uuid.UUID(s)`) and minting one (`uuid4()`) stay outside the model: the
 * first is a parameter of the handler, the second an input of the upload.
 */
module Uuids {

  /** 2^128: an identifier is 32 hexadecimal digits. */
  const UuidBound: nat := Pow16(32)

  type Uuid = x: int | 0 <= x < UuidBound

  predicate IsHexDigit(c: char) {
    ('0' <= c <= '9') || ('a' <= c <= 'f')
  }

  function HexChar(d: nat): (c: char)
    requires d < 16
    ensures IsHexDigit(c)
  {
    if d < 10 then ('0' as int + d) as char else ('a' as int + (d - 10)) as char
  }

  function HexValue(c: char): (d: nat)
    requires IsHexDigit(c)
    ensures d < 16
  {
    if c <= '9' then c as nat - '0' as nat else c as nat - 'a' as nat + 10
  }

  function Pow16(k: nat): (p: nat)
    ensures p >= 1
  {
    if k == 0 then 1 else 16 * Pow16(k - 1)
  }

  /** The `width` least significant hexadecimal digits of `n`, lower case,
      most significant first, padded with zeros. */
  function HexDigits(n: nat, width: nat): (s: string)
    ensures |s| == width
    ensures forall i :: 0 <= i < |s| ==> IsHexDigit(s[i])
    decreases width
  {
    if width == 0 then "" else HexDigits(n / 16, width - 1) + [HexChar(n % 16)]
  }

  /** The value of a string of hexadecimal digits, read most significant
      first: the reference reading that `HexDigits` must agree with. */
  function HexDigitsValue(s: string): nat
    requires forall i :: 0 <= i < |s| ==> IsHexDigit(s[i])
  {
    if |s| == 0 then 0 else 16 * HexDigitsValue(s[..|s| - 1]) + HexValue(s[|s| - 1])
  }

  lemma DivBound(n: nat, p: nat)
    requires n < 16 * p
    ensures n / 16 < p
  {
  }

  /** Writing `width` digits and reading them back gives the number, as long
      as it fits in that many digits. */
  lemma {:induction false} HexDigitsRoundTrip(n: nat, width: nat)
    requires n < Pow16(width)
    ensures HexDigitsValue(HexDigits(n, width)) == n
    decreases width
  {
    if width > 0 {
      var s := HexDigits(n, width);
      var q, r := n / 16, n % 16;
      assert n == 16 * q + r;
      DivBound(n, Pow16(width - 1));
      HexDigitsRoundTrip(q, width - 1);
      assert s[..|s| - 1] == HexDigits(q, width - 1);
      assert HexValue(s[|s| - 1]) == r;
    }
  }

  /** `str(uuid)`: 32 hexadecimal digits grouped 8-4-4-4-12 by hyphens. */
  function UuidText(u: Uuid): (s: string)
    ensures |s| == 36
    ensures s[8] == '-' && s[13] == '-' && s[18] == '-' && s[23] == '-'
  {
    var h := HexDigits(u, 32);
    var s := h[0..8] + "-" + h[8..12] + "-" + h[12..16] + "-" + h[16..20] + "-" + h[20..32];
    assert s[8] == '-' && s[13] == '-' && s[18] == '-' && s[23] == '-';
    s
  }

  /** The 32 digits of a canonical text, with the four hyphens left out. */
  function UuidDigits(s: string): string
    requires |s| == 36
  {
    s[0..8] + s[9..13] + s[14..18] + s[19..23] + s[24..36]
  }

  /** Reads a canonical text back as the identifier it spells. */
  function UuidValue(s: string): int
    requires |s| == 36
    requires forall i :: 0 <= i < 32 ==> IsHexDigit(UuidDigits(s)[i])
  {
    HexDigitsValue(UuidDigits(s))
  }

  /** The text spells exactly the identifier: its digits are hexadecimal and
      read back as the value. */
  lemma UuidTextRoundTrip(u: Uuid)
    ensures forall i :: 0 <= i < 32 ==> IsHexDigit(UuidDigits(UuidText(u))[i])
    ensures UuidValue(UuidText(u)) == u
  {
    DigitsOfText(u);
    HexDigitsRoundTrip(u, 32);
  }

  /** Dropping the hyphens from the text gives back the 32 digits. */
  lemma DigitsOfText(u: Uuid)
    ensures UuidDigits(UuidText(u)) == HexDigits(u, 32)
  {
    DigitsOfGroups(HexDigits(u, 32));
  }

  /** Grouping any 32 characters 8-4-4-4-12 with hyphens and dropping the
      hyphens again gives the characters back. */
  lemma DigitsOfGroups(h: string)
    requires |h| == 32
    ensures UuidDigits(h[0..8] + "-" + h[8..12] + "-" + h[12..16] + "-" + h[16..20] + "-" + h[20..32]) == h
  {
    var s := h[0..8] + "-" + h[8..12] + "-" + h[12..16] + "-" + h[16..20] + "-" + h[20..32];
    assert s[0..8] == h[0..8];
    assert s[9..13] == h[8..12];
    assert s[14..18] == h[12..16];
    assert s[19..23] == h[16..20];
    assert s[24..36] == h[20..32];
    assert h[0..8] + h[8..12] + h[12..16] + h[16..20] + h[20..32] == h;
  }

  /** Distinct identifiers have distinct texts, so keying rows by `str(uuid)`
      is the same as keying them by the identifier. */
  lemma UuidTextInjective(a: Uuid, b: Uuid)
    ensures UuidText(a) == UuidText(b) <==> a == b
  {
    UuidTextRoundTrip(a);
    UuidTextRoundTrip(b);
  }
}
